=== FILE: README.md ===
# Lead tracker core, modelled in Dafny

The system is a lead tracker for a voice-agent sales product. It has two parts:

- A serverless HTTP endpoint (`/functions/v1/leads[/:id]`) stores leads in a table.
  - GET lists leads or reads one lead.
  - POST creates a lead with defaults.
  - PATCH merges a partial update into a lead. Two columns get special treatment:
    - the sentiment history is appended to, and the sentiment score follows its newest entry;
    - documents are upserted by `type`, and their `status` is derived from their `url`.
- A browser app keeps its views in sync with the table through realtime change events:
  - a dashboard list;
  - a lead detail page with a sentiment trend, a transcript and documents;
  - a hash router that keeps signed-out visitors on the home page.

Modules:

| file | module | what it holds |
|---|---|---|
| `js_values.dfy` | `JsValues` | Untyped JSON values and the few JavaScript operations the endpoint relies on: truthiness, property reads, `===`, array and object spread, and object destructuring from `Object.entries` order. It also holds the `Option` and `Result` types. |
| `strings.dfy` | `Strings` | `split` on one separator, `join` and `filter(Boolean)`, with round-trip lemmas. |
| `reconciler.dfy` | `Reconciler` | The PATCH merge engine. It covers the allow-list, history append and score derivation, and the document upsert with status derivation. It also covers the loop over the body's entries and writing the result into a row. |
| `leads_endpoint.dfy` | `LeadsEndpoint` | The request handler over a store, which is a map from id to row. It covers path parsing, method dispatch, create, read and patch, and the error responses. |
| `lead_record.dfy` | `LeadRecord` | The typed lead record the views read, and the shared sentiment colour. |
| `dashboard.dfy` | `Dashboard` | The realtime list reducer and the badge classes. |
| `lead_details.dfy` | `LeadDetails` | The detail view: its event handlers, the trend, the chart guard and the document display states. |
| `router.dfy` | `Router` | The hash router, the signed-out guard and the render selection. |

Modelling choices:

- Server values are untyped JSON (`Json`). JavaScript `undefined` is `None` of `Option<Json>`.
- A stored row is a `map<string, Json>`, and the table is a `map<string, Row>` keyed by id.
- A request body is the ordered sequence of its `(key, value)` pairs, in `Object.entries` order. That order matters because the loop over the entries runs left to right.
- The keys of a body are distinct (`ObjectEntries`), as they are in any parsed JSON object. A body that is JSON `null` is `None`, like a body that is not JSON: destructuring it (index.ts:99-108) and reading its fields (index.ts:215) both throw, so both answer 500. Any other parsed value is represented by the entries JavaScript gives for it.
- Any request failure that the handler's `catch` turns into a 500 is an `Err` in the model. Such failures include:
  - a body that is not JSON;
  - reading a property of `null`;
  - spreading a non-iterable.

Values supplied by the environment are parameters (`ServerAssigned`):

- the generated id;
- `created_at`;
- the current ISO timestamp.

## Model

| member | source | states |
|---|---|---|
| JsValues.Truthy | supabase/functions/leads/index.ts:110 | A truthy value is defined and not `null`; every array and object is truthy, empty ones included. |
| JsValues.StrictEq | supabase/functions/leads/index.ts:278-280 | Two values are strictly equal exactly when they are equal and are `undefined` or a primitive. An array or object is never strictly equal to anything, because parsed values are distinct references. |
| JsValues.GetProp | supabase/functions/leads/index.ts:260-261 | Reading a property fails exactly on `null`. It yields a field only when the value is an object that has that field; on any other value it is `undefined`. An object that carries the key yields exactly that field. |
| JsValues.StrictEqIsEquality | supabase/functions/leads/index.ts:278-280 | The `===` used to match document types implies structural equality and is symmetric. |
| JsValues.SpreadItems | supabase/functions/leads/index.ts:255 | Array spread succeeds exactly on arrays and strings. An array gives its own items, and a string gives one item per character. |
| JsValues.ExistingItems | supabase/functions/leads/index.ts:254-255 | A fallback to the empty list, then spread: a falsy stored value gives the empty list, and a stored array gives its items. |
| JsValues.Lookup | supabase/functions/leads/index.ts:99-108 | A destructured key is present exactly when some entry carries it, and then its value is one of those entries' values. |
| JsValues.LookupDistinct | supabase/functions/leads/index.ts:99-108 | In a body with distinct keys, each key reads as its own entry's value. |
| JsValues.DistinctAround | supabase/functions/leads/index.ts:250 | In a body with distinct keys, the key of one entry occurs in no entry before or after it. |
| Strings.Split | supabase/functions/leads/index.ts:28 | `split('/')` always yields at least one segment, and no segment contains the separator. |
| Strings.JoinSplit | supabase/functions/leads/index.ts:28 | Splitting then joining gives the original string back. |
| Strings.SplitCons | src/App.tsx:29 | Splitting at the first separator peels off the segment before it. |
| Strings.SplitNoSep | src/App.tsx:29 | A string without the separator splits into itself alone. |
| Strings.SplitJoin | supabase/functions/leads/index.ts:28 | Joining separator-free segments and splitting again gives the segments back. |
| Strings.NonEmpty | supabase/functions/leads/index.ts:28 | `filter(Boolean)` keeps exactly the non-empty segments and never lengthens the list. The order is fixed by the two lemmas below. |
| Strings.NonEmptyAppend | supabase/functions/leads/index.ts:28 | Filtering distributes over concatenation, so the kept segments keep their relative order. |
| Strings.NonEmptySingle | supabase/functions/leads/index.ts:28 | A single segment is kept exactly when it is non-empty. |
| Strings.NonEmptyKeeps | supabase/functions/leads/index.ts:28 | Filtering a list of non-empty segments leaves it unchanged. |
| LeadsEndpoint.Segments | supabase/functions/leads/index.ts:28 | Every segment of a pathname is non-empty and holds no slash. |
| LeadsEndpoint.LeadIdFromPath | supabase/functions/leads/index.ts:28-34 | A found id is non-empty and holds no slash, and `leads` is among the segments. |
| LeadsEndpoint.IndexOf | supabase/functions/leads/index.ts:31 | `findIndex` gives the first occurrence: the value is at that index and nowhere before it, or it is absent altogether. |
| LeadsEndpoint.LeadIdCharacterised | supabase/functions/leads/index.ts:28-34 | The id is null exactly when `leads` is absent or is the last segment. Otherwise it is the segment right after the first `leads`; it is never empty and never holds a slash. |
| LeadsEndpoint.FirstOccurrenceUnique | supabase/functions/leads/index.ts:31 | Two first occurrences of a value are the same index. |
| LeadsEndpoint.IndexOfAfterPrefix | supabase/functions/leads/index.ts:31 | A value placed right after a prefix that lacks it is found at the prefix's length. |
| LeadsEndpoint.SegmentsOfPath | supabase/functions/leads/index.ts:28 | An absolute path built from plain segments parses back into exactly those segments. |
| LeadsEndpoint.LeadIdOfUrl | supabase/functions/leads/index.ts:27-34 | The documented URL `/<prefix>/leads/<id>` yields exactly `<id>`, for any prefix free of `leads`. |
| LeadsEndpoint.LeadIdAfterPrefix | supabase/functions/leads/index.ts:31-34 | Segments of the form prefix, `leads`, id give that id. |
| LeadsEndpoint.Handle | supabase/functions/leads/index.ts:10-363 | Every answer is 200, 201, 400, 404, 405 or 500. No request removes a lead, and only a 201 answer to a POST adds one. GET, POST and PATCH are answered by their own handlers, on the id parsed from the path. |
| LeadsEndpoint.HandleGet | supabase/functions/leads/index.ts:36-95 | GET answers 200 or 404, and 404 exactly when an id is given that the store lacks. |
| LeadsEndpoint.HandlePost | supabase/functions/leads/index.ts:97-178 | POST answers 201, 400 or 500. It answers 201 exactly when the body parsed, both names are truthy and the new id is free; then exactly that id is added. Any other answer leaves the store as it was. |
| LeadsEndpoint.HandlePatch | supabase/functions/leads/index.ts:180-345 | PATCH answers 200, 400, 404 or 500, and without an id "Lead ID is required". Only a 200 writes, and only to an existing lead, keeping the set of ids. A 200 answers with the lead as stored after the update. |
| LeadsEndpoint.NewLeadRow | supabase/functions/leads/index.ts:99-157 | No contract of its own. The row is characterised by CreateInserts (exactly the eighteen columns, the id and the names), CreateDefaults, CreateKeepsSupplied, CreateEmptyText and CreateInitialHistory. |
| LeadsEndpoint.NewLeadColumn | supabase/functions/leads/index.ts:99-157 | No contract of its own. Its value per column is stated by the same create lemmas. |
| LeadsEndpoint.MergeColumns | supabase/functions/leads/index.ts:221-225 | The pre-fetch keeps exactly the history and documents columns the row has, unchanged. |
| LeadsEndpoint.PreflightAlwaysOk | supabase/functions/leads/index.ts:11-16 | OPTIONS always answers 200 with no body and leaves the store unchanged. |
| LeadsEndpoint.MethodDispatch | supabase/functions/leads/index.ts:347-353 | Every verb other than GET, POST, PATCH and OPTIONS, DELETE included, answers 405 "Method not allowed" and changes nothing. 405 is answered for exactly those verbs. GET never changes the store. |
| LeadsEndpoint.GetReturnsStored | supabase/functions/leads/index.ts:36-95 | GET never writes. With an id it returns the stored row, or 404 when that row is missing. Without an id it returns 200 with the listing of exactly the stored rows. |
| LeadsEndpoint.CreateValidation | supabase/functions/leads/index.ts:110-118 | Create answers 400 exactly when `company_name` or `project_name` is missing or falsy. A 400 is "company_name and project_name are required" and leaves the store unchanged. |
| LeadsEndpoint.CreateInserts | supabase/functions/leads/index.ts:138-177 | A valid create answers 201 and inserts one row under the new id. It leaves every other row alone and returns the inserted row. That row is the one the body builds, column by column; it has exactly the eighteen columns, the new id and the caller's names. |
| LeadsEndpoint.PostInserts | supabase/functions/leads/index.ts:110-177 | A valid create with a fresh id answers 201 with the row the body builds, and stores that row under the new id. |
| LeadsEndpoint.NewLeadRowKeys | supabase/functions/leads/index.ts:138-157 | The inserted row has exactly the eighteen create columns and carries the new id. |
| LeadsEndpoint.NewLeadRowNames | supabase/functions/leads/index.ts:99-101 | The inserted row carries the supplied company and project names as sent. |
| LeadsEndpoint.CreateDefaults | supabase/functions/leads/index.ts:99-108 | Missing optional fields take their defaults: score 50, value and term "unknown", team size 1, status "live", and user null. |
| LeadsEndpoint.CreateKeepsSupplied | supabase/functions/leads/index.ts:99-108 | A supplied optional field is stored exactly as its destructured value. |
| LeadsEndpoint.CreateEmptyText | supabase/functions/leads/index.ts:151-156 | Summary, notes, transcript and the three contact fields start as empty strings. |
| LeadsEndpoint.CreateInitialHistory | supabase/functions/leads/index.ts:120-136 | A new lead has exactly one history entry, whose score equals the stored score and whose reason is "Initial sentiment". It has exactly one default presentation document, and its document types are unique. |
| LeadsEndpoint.CreateThenGet | supabase/functions/leads/index.ts:36-70 | A GET on the new lead's URL returns the row that the create returned, with status 200. |
| LeadsEndpoint.PatchRequiresId | supabase/functions/leads/index.ts:180-189 | A PATCH without an id answers 400 "Lead ID is required" and changes nothing. |
| LeadsEndpoint.PatchNoValidFields | supabase/functions/leads/index.ts:301-309 | A body without any allowed key answers 400 "No valid fields to update" and changes nothing. |
| LeadsEndpoint.PatchValidFields | supabase/functions/leads/index.ts:250-309 | A body with an allowed key never gets the "No valid fields" answer. |
| LeadsEndpoint.PatchMissingLead | supabase/functions/leads/index.ts:215-245 | When the body needs the current row and the lead does not exist, the answer is 404 and nothing is written. |
| LeadsEndpoint.PatchFrame | supabase/functions/leads/index.ts:311-344 | A successful PATCH keeps the set of ids and leaves every other lead alone. It also keeps every column of the lead that no body key writes. |
| LeadsEndpoint.LookupSole | supabase/functions/leads/index.ts:215 | A key that occurs once in the body reads as that entry's value. |
| LeadsEndpoint.LookupSkip | supabase/functions/leads/index.ts:215 | Entries of other keys before a key do not affect its lookup. |
| LeadsEndpoint.MergeColumnsField | supabase/functions/leads/index.ts:221-225 | The pre-fetch selects the history and documents columns unchanged. |
| LeadsEndpoint.PatchAppendsHistory | supabase/functions/leads/index.ts:252-262 | After a history-array PATCH, the stored history is the prior history followed by the incoming entries. The prior entries are an unchanged prefix, and the length is prior plus new. The stored score is the newest entry's score, unless a later key writes the score. |
| LeadsEndpoint.PatchUpsertsDocuments | supabase/functions/leads/index.ts:263-294 | After a documents-array PATCH, the stored documents are the upsert of the incoming ones into the prior ones. If the prior types were unique, they stay unique, and the set of types is prior plus incoming. |
| LeadsEndpoint.PatchCopiesScalar | supabase/functions/leads/index.ts:295-316 | A successful PATCH stores the value sent for an allowed key exactly as sent, unless that key is a history or documents array. A `sentiment_score` is stored as sent unless a later history entry derives it. |
| LeadsEndpoint.PatchIdempotent | supabase/functions/leads/index.ts:295-296 | A body without history or documents applied twice leaves the store as after applying it once. |
| Reconciler.NeedsCurrent | supabase/functions/leads/index.ts:215 | The current row is fetched only when the body has a history or documents key. |
| Reconciler.ApplyEntry | supabase/functions/leads/index.ts:251-297 | A key outside the allow-list changes nothing. Only a history or documents array with a current row can fail. A success keeps every key and adds the entry's key when it is allowed, and never adds a key outside the allow-list. |
| Reconciler.Fold | supabase/functions/leads/index.ts:250-299 | The loop adds only allowed keys, and it can fail only when a current row was fetched. |
| Reconciler.ComputeUpdates | supabase/functions/leads/index.ts:250-299 | The update record holds only allowed keys, and without a fetched row it is always computed. |
| Reconciler.UpsertOne | supabase/functions/leads/index.ts:269-291 | One upsert succeeds exactly when the incoming document is an object and no `null` document comes before the first match. |
| Reconciler.Overlay | supabase/functions/leads/index.ts:284-287 | The merged document has the existing fields and the incoming ones; a non-object existing document contributes no fields. Incoming fields win, and every other existing field keeps its value. |
| Reconciler.DeriveStatus | supabase/functions/leads/index.ts:269-275 | A truthy url forces status "ready". No url and no status gives "generating". Otherwise the status is kept. Other fields are unchanged. A non-object document is an error. |
| Reconciler.FindByType | supabase/functions/leads/index.ts:277-280 | It finds the first document whose type is strictly equal and none before it, or it shows that none matches. It is an error only when a null document is met before any match. |
| Reconciler.UpsertAll | supabase/functions/leads/index.ts:266-294 | Upserting never shortens the document list. |
| Reconciler.UpsertAllSplit | supabase/functions/leads/index.ts:266 | The incoming documents are applied in array order: upserting `a + b` is upserting `a`, then `b` into the result, and the first failure ends the loop. |
| Reconciler.UpsertAllSingle | supabase/functions/leads/index.ts:266-291 | Upserting a one-document array is exactly one upsert step. |
| Reconciler.UpsertAllLength | supabase/functions/leads/index.ts:282-291 | Upserting one document never shortens the list. |
| Reconciler.DerivedType | supabase/functions/leads/index.ts:269-275 | Deriving the status keeps the document's type. |
| Reconciler.OverlayKeepsType | supabase/functions/leads/index.ts:284-287 | Merging a document of the same type into an existing one keeps its type. |
| Reconciler.UpsertOneShape | supabase/functions/leads/index.ts:277-291 | One upsert either overlays the first same-type document in place (no earlier document has that type) and leaves every other document alone, or appends the document when no type matches. |
| Reconciler.UpsertMatchInPlace | supabase/functions/leads/index.ts:277-291 | An existing document with the same string type as an incoming object, and no `null` document before it, is merged in place: the upsert succeeds and the list keeps its length. |
| Reconciler.UpsertOneFrame | supabase/functions/leads/index.ts:277-291 | A document of another type is left untouched. |
| Reconciler.UpsertStatusDerived | supabase/functions/leads/index.ts:269-291 | The result holds a document of the incoming type that carries every incoming field. Its status is "ready" when the url is truthy, and "generating" when neither a url nor a status was given. |
| Reconciler.UpsertOneKeepsUnique | supabase/functions/leads/index.ts:277-291 | One upsert keeps document types unique. |
| Reconciler.UpsertOneTypes | supabase/functions/leads/index.ts:277-291 | One upsert adds exactly the incoming type to the set of types. |
| Reconciler.UpsertAllInvariant | supabase/functions/leads/index.ts:263-294 | Upserting a whole array keeps types unique. The resulting types are the prior ones plus the incoming ones. |
| Reconciler.UpsertAllFrame | supabase/functions/leads/index.ts:263-294 | A prior document whose type no incoming document shares keeps its position and content. |
| Reconciler.MergeHistory | supabase/functions/leads/index.ts:252-262 | The history merge fails exactly when the stored history is not iterable, or when the newest entry is null. |
| Reconciler.MergeHistoryAppends | supabase/functions/leads/index.ts:254-262 | It stores prior ++ incoming, with prior as an unchanged prefix and a length of prior plus new. The score follows the newest entry. An empty result leaves the score as it was. No other key is touched. |
| Reconciler.ApplyEntryFrame | supabase/functions/leads/index.ts:250-298 | One body entry changes only the keys it writes. |
| Reconciler.FoldFrame | supabase/functions/leads/index.ts:250-299 | Entries that never write a key leave it as it was. |
| Reconciler.FoldSplit | supabase/functions/leads/index.ts:250 | Processing a body in two parts is processing it in one, so the loop is a left fold. |
| Reconciler.FoldNoAllowed | supabase/functions/leads/index.ts:251 | Keys outside the allow-list are ignored. |
| Reconciler.FoldKeys | supabase/functions/leads/index.ts:250-299 | Every allowed key of the body ends up in the update record, and nothing is removed from it. |
| Reconciler.ComputeUpdatesEmpty | supabase/functions/leads/index.ts:301 | The update record is empty exactly when the body has no allowed key. |
| Reconciler.NoAllowedNoFetch | supabase/functions/leads/index.ts:215-217 | A body without allowed keys never triggers the pre-fetch. |
| Reconciler.LastWriteWins | supabase/functions/leads/index.ts:295-296 | An allowed key copied verbatim keeps its value, unless a later entry writes it. A later `sentiment_score` therefore overrides the score derived from history. |
| Reconciler.HistoryPatchAppends | supabase/functions/leads/index.ts:252-262 | In a whole body, the history entry becomes prior ++ incoming. Without a later score key, the score is the newest entry's `score`. |
| Reconciler.DocumentsPatchUpserts | supabase/functions/leads/index.ts:263-294 | In a whole body, the documents entry becomes the upsert of the incoming documents into the stored ones. |
| Reconciler.Persist | supabase/functions/leads/index.ts:311-316 | Writing updates sets each defined value and leaves every other column as stored. An `undefined` value writes nothing. |
| Reconciler.PersistIdempotent | supabase/functions/leads/index.ts:311-316 | Writing the same updates twice is writing them once. |
| LeadRecord.SentimentColor | src/components/Dashboard.tsx:76-80 | Exactly one band applies: green from 70, yellow from 40 up to 69, red below 40. |
| LeadRecord.SentimentColorMonotone | src/components/LeadDetails.tsx:126-130 | A higher score never gets a lower band. |
| Dashboard.ReplaceById | src/components/Dashboard.tsx:44-49 | UPDATE keeps the length. Each entry with the payload's id becomes the payload; every other entry is unchanged in place. |
| Dashboard.Count | src/components/Dashboard.tsx:52-55 | The number of leads with an id is zero exactly when no lead carries it. |
| Dashboard.ApplyChange | src/components/Dashboard.tsx:39-56 | INSERT prepends, so the old list becomes the tail. UPDATE keeps the length. DELETE keeps exactly the leads of other ids. The indicator is raised exactly on INSERT and UPDATE. |
| Dashboard.UpdateAbsentIsNoop | src/components/Dashboard.tsx:45-49 | An UPDATE whose id is not listed leaves the list identical. |
| Dashboard.RemoveById | src/components/Dashboard.tsx:54 | No surviving lead carries the deleted id. The exact survivors and their order are stated by RemoveKeepsOthers, RemoveCount and RemoveDistributes. |
| Dashboard.RemoveDistributes | src/components/Dashboard.tsx:52-55 | Filtering works segment by segment, so survivors keep their relative order. |
| Dashboard.RemoveCount | src/components/Dashboard.tsx:52-55 | DELETE shortens the list by exactly the number of leads with that id. |
| Dashboard.RemoveKeepsOthers | src/components/Dashboard.tsx:52-55 | A lead survives DELETE exactly when its id differs. |
| Dashboard.RemoveSingleton | src/components/Dashboard.tsx:52-55 | A one-element list loses its element exactly when the ids match. |
| Dashboard.RemoveIdempotent | src/components/Dashboard.tsx:52-55 | Deleting the same id twice is deleting it once. |
| Dashboard.InsertThenDelete | src/components/Dashboard.tsx:40-55 | Deleting a just-inserted lead's id gives the old list without that id. When the id was new, it gives the old list back. |
| Dashboard.RemoveNoneIsNoop | src/components/Dashboard.tsx:52-55 | Deleting an id no lead carries changes nothing. |
| Dashboard.UpdateThenDelete | src/components/Dashboard.tsx:44-55 | Deleting after an update of the same id equals deleting alone. |
| Dashboard.InsertDuplicates | src/components/Dashboard.tsx:40-41 | INSERT does not deduplicate. An id already listed ends up listed one more time, and so at least twice. |
| Dashboard.ValueBadgeColor | src/components/Dashboard.tsx:82-89 | high, medium and low each get their own class. Every other value gets the default class. |
| Dashboard.StatusBadgeColor | src/components/Dashboard.tsx:91-93 | "live" gets the live class. Every other status gets the other class. |
| LeadDetails.Compare | src/components/LeadDetails.tsx:121-123 | The trend is up, down or stable exactly when the current score is greater than, less than or equal to the previous one. |
| LeadDetails.SentimentTrend | src/components/LeadDetails.tsx:114-124 | There is no trend exactly when the lead or its history is missing, or the history has fewer than two entries. Otherwise the trend compares the last score with the one before it. |
| LeadDetails.TrendOnlyLastTwo | src/components/LeadDetails.tsx:117-119 | Entries before the last two never change the trend. |
| LeadDetails.TrendAfterAppend | src/components/LeadDetails.tsx:117-123 | After one entry is appended to a non-empty history, the trend compares the old last score with the new score. |
| LeadDetails.NoTrendFromOneEntry | src/components/LeadDetails.tsx:115 | A single entry never has a trend. |
| LeadDetails.ShowsChart | src/components/LeadDetails.tsx:276 | The chart is drawn exactly when a history with at least one entry exists. |
| LeadDetails.TrendImpliesChart | src/components/LeadDetails.tsx:115-276 | A shown trend implies a drawn chart. |
| LeadDetails.Apply | src/components/LeadDetails.tsx:72-90 | A lead update replaces the whole lead and keeps the transcript. A message insert appends the payload: the old transcript is an unchanged prefix and the length grows by one, while the lead is kept. Both raise the indicator. |
| LeadDetails.ApplyAll | src/components/LeadDetails.tsx:72-90 | An empty run changes nothing, a non-empty run raises the indicator, and the old transcript stays a prefix. |
| LeadDetails.Inserted | src/components/LeadDetails.tsx:86-87 | A message is among a run's inserted messages exactly when the run holds its insert event. They never outnumber the events. |
| LeadDetails.TranscriptAppendOnly | src/components/LeadDetails.tsx:87 | After any run of events, the transcript is the old one followed by every inserted message in arrival order. |
| LeadDetails.LastUpdate | src/components/LeadDetails.tsx:73 | The last update of a run is one of its lead updates, and only message inserts follow it. There is none exactly when every event is a message insert. |
| LeadDetails.ApplyAllSnoc | src/components/LeadDetails.tsx:72-90 | Handling a run and then one more event is handling the longer run. |
| LeadDetails.LastUpdateWins | src/components/LeadDetails.tsx:73-74 | After a run, the lead shown is the payload of the last lead update, or the previous lead if there was none. Any event raises the indicator. |
| LeadDetails.DocumentDisplay | src/components/LeadDetails.tsx:302-315 | A document shows "generating" exactly when its status is "generating". Otherwise it shows a download exactly when its url is non-empty, linked to that url and named after the file. Otherwise it is "not available". |
| LeadDetails.DocumentRows | src/components/LeadDetails.tsx:290-317 | Absent documents give no rows. Otherwise there is one row per document, in order, each with that document's display state. |
| Router.StripHash | src/App.tsx:21 | The leading `#` is removed, and an empty hash stays empty. |
| Router.LeadSegment | src/App.tsx:29 | For a hash starting with "lead/", the second `/`-segment exists and contains no slash. |
| Router.RouteOf | src/App.tsx:20-36 | Signed out, the route is always home with a null id. Signed in, exact "dashboard" and "api-docs" pick their pages, and a "lead/" prefix picks the detail page. A lead id is set exactly on the detail page. |
| Router.Guard | src/App.tsx:43-48 | Signed out, a protected page becomes home and the location hash is cleared. Home, and any page while signed in, is left alone. The lead id is never touched. |
| Router.Render | src/App.tsx:50-92 | Signed out, the home view is rendered. The dashboard and API docs render exactly on their pages when signed in. The detail view renders exactly when signed in, on its page, with a non-empty id. |
| Router.Navigate | src/App.tsx:19-92 | Signed out, every hash renders home. A rendered lead id is non-empty and holds no slash. |
| Router.SignOut | src/App.tsx:19-48 | Signing out routes home. The hash is cleared when a protected page was shown, and kept otherwise. |
| Router.SignIn | src/App.tsx:19-41 | Signing in keeps the hash, and reaches a page other than home only from a non-empty hash. |
| Router.SignOutThenInIsHome | src/App.tsx:19-48 | Signing out from a protected page and signing in again lands on home. Without the hash reset, the old `#dashboard` hash would lead straight back to the dashboard. |
| Router.SignedOutAlwaysHome | src/App.tsx:22-47 | Signed out, every hash routes home with a null id, and home is rendered. |
| Router.GuardedRenderIsHome | src/App.tsx:43-92 | After the guard, a signed-out user sees home, whatever state the router was left in. |
| Router.LeadLinkRoundTrip | src/App.tsx:28-31 | `#lead/<id>` routes to the detail page with exactly `<id>`, for an id without slashes. |
| Router.LeadLinkIgnoresRest | src/App.tsx:29 | Segments after the lead id are ignored. |
| Router.LinksShowTheirView | src/App.tsx:20-92 | Signed in, each page's link renders that page's view. |
| Router.EmptyLeadIdShowsHome | src/App.tsx:70-80 | `#lead/` routes to the detail page with an empty id, and the home view is rendered. |
| Router.UnknownHashShowsHome | src/App.tsx:32-35 | Any other hash routes home and renders home. |

Behaviours of the code worth knowing:

- Unknown PATCH keys are dropped silently rather than rejected.
- A later `sentiment_score` key overrides the score derived from the appended history.
- An empty history array still re-derives the score from the last stored entry.
- INSERT on the dashboard prepends unconditionally.

## Left out

- LeadsEndpoint.HandlePatch: a PATCH with only scalar fields on an id that does not exist answers 404, following the code's `!data` branch. The real client's `.single()` reports zero rows as an error, which the code turns into a 500. The client library is not part of this model.
- HTTP plumbing is not modelled: CORS headers, `Response` construction and client creation.
- Store errors are not modelled: a failed select, insert or update gives 500 in the code. The exception is the id collision on insert, which is modelled.
- Error message texts raised by the JavaScript engine are approximated by fixed strings.
- The GET listing's order by `created_at` is done by the store. The listing is modelled as a set of rows.
- The read-modify-write race between concurrent PATCHes, and the realtime subscription itself, are left out as concurrency and transport concerns.
- Numbers are integers. Floating-point scores, and `NaN` comparisons in the trend, are not modelled.
- An incoming document that is a JSON array is treated as an error. JavaScript would treat it as an object with extra index keys.
- Spreading an existing document that is a string or array gives an empty object, where JavaScript would give index keys.
- `setTimeout` clearing of the live-update indicator, React state hooks, and the initial data loads (`getLead`, the messages query) are left out. Only the state transitions are modelled.
- The detail view's `getValueBadgeColor` and `getStatusBadgeColor` are defined but never rendered, so they are left out. The dashboard's versions are modelled.
- Presentation components, the voice-bot widget, the sentiment chart's SVG geometry and the fetch wrappers are not part of this model.
- Clearing the hash fires a `hashchange` event. The model does not run the handler a second time for it, because that run routes home, where the guard has already put the router.
- LeadDetails.ShowsChart: the chart guard is modelled on the typed record. A history that is not an array is not represented there.

=== FILE: dashboard.dfy ===
/** The dashboard's list synchroniser: the realtime reducer over the list of
    leads and the badge classifications of its table. */
module Dashboard {
  import opened JsValues
  import opened LeadRecord

  /** A change notification on the leads table. DELETE carries only the old id. */
  datatype LeadChange = Inserted(lead: Lead) | Updated(lead: Lead) | Deleted(oldId: string)

  /** `current.map(lead => lead.id === payload.id ? payload : lead)`. */
  function ReplaceById(leads: seq<Lead>, payload: Lead): (r: seq<Lead>)
    ensures |r| == |leads|
    ensures forall i :: 0 <= i < |leads| ==>
              r[i] == (if leads[i].id == payload.id then payload else leads[i])
  {
    if |leads| == 0 then []
    else [if leads[0].id == payload.id then payload else leads[0]] + ReplaceById(leads[1..], payload)
  }

  /** `current.filter(lead => lead.id !== oldId)`. */
  function RemoveById(leads: seq<Lead>, oldId: string): (r: seq<Lead>)
    ensures forall i :: 0 <= i < |r| ==> r[i].id != oldId
    decreases |leads|
  {
    if |leads| == 0 then []
    else if leads[0].id == oldId then RemoveById(leads[1..], oldId)
    else [leads[0]] + RemoveById(leads[1..], oldId)
  }

  /** How many leads carry the id. */
  function Count(leads: seq<Lead>, id: string): (n: nat)
    ensures n <= |leads|
    ensures n == 0 <==> forall i :: 0 <= i < |leads| ==> leads[i].id != id
  {
    if |leads| == 0 then 0
    else (if leads[0].id == id then 1 else 0) + Count(leads[1..], id)
  }

  predicate HasId(leads: seq<Lead>, id: string) {
    exists i :: 0 <= i < |leads| && leads[i].id == id
  }

  /** The realtime callback: the new list, and whether the "live update"
      indicator is raised. */
  function ApplyChange(leads: seq<Lead>, change: LeadChange): (r: (seq<Lead>, bool))
    ensures r.1 <==> !change.Deleted?
    ensures change.Inserted? ==> |r.0| == |leads| + 1 && r.0[0] == change.lead && r.0[1..] == leads
    ensures change.Updated? ==> |r.0| == |leads|
    ensures change.Deleted? ==> |r.0| <= |leads| && forall x :: x in r.0 <==> x in leads && x.id != change.oldId
  {
    match change
    case Inserted(lead) => ([lead] + leads, true)
    case Updated(lead) => (ReplaceById(leads, lead), true)
    case Deleted(oldId) =>
      RemoveKeepsOthers(leads, oldId);
      RemoveCount(leads, oldId);
      (RemoveById(leads, oldId), false)
  }

  /** An update whose id is not in the list leaves it identical. */
  lemma UpdateAbsentIsNoop(leads: seq<Lead>, payload: Lead)
    requires !HasId(leads, payload.id)
    ensures ApplyChange(leads, Updated(payload)).0 == leads
  {
  }

  /** Removal works segment by segment, so survivors keep their relative order. */
  lemma {:induction false} RemoveDistributes(a: seq<Lead>, b: seq<Lead>, id: string)
    ensures RemoveById(a + b, id) == RemoveById(a, id) + RemoveById(b, id)
    decreases |a|
  {
    if |a| == 0 {
      assert a + b == b;
    } else {
      var ab := a + b;
      assert ab[0] == a[0];
      assert ab[1..] == a[1..] + b;
      RemoveDistributes(a[1..], b, id);
      if a[0].id != id {
        var x := a[0];
        var ra := RemoveById(a[1..], id);
        var rb := RemoveById(b, id);
        assert RemoveById(ab, id) == [x] + (ra + rb);
        assert RemoveById(a, id) == [x] + ra;
        assert [x] + (ra + rb) == ([x] + ra) + rb;
      }
    }
  }

  /** Removal shortens the list by exactly the number of leads with the id. */
  lemma {:induction false} RemoveCount(leads: seq<Lead>, id: string)
    ensures |RemoveById(leads, id)| == |leads| - Count(leads, id)
    decreases |leads|
  {
    if |leads| > 0 {
      RemoveCount(leads[1..], id);
    }
  }

  /** Every lead of another id survives the removal, and nothing new appears. */
  lemma {:induction false} RemoveKeepsOthers(leads: seq<Lead>, id: string)
    ensures forall x :: x in RemoveById(leads, id) <==> x in leads && x.id != id
    decreases |leads|
  {
    if |leads| > 0 {
      RemoveKeepsOthers(leads[1..], id);
      assert leads == [leads[0]] + leads[1..];
    }
  }

  /** Removal keeps every lead of another id and drops every lead of this id. */
  lemma RemoveSingleton(x: Lead, id: string)
    ensures RemoveById([x], id) == (if x.id == id then [] else [x])
  {
  }

  /** Removing twice is removing once. */
  lemma {:induction false} RemoveIdempotent(leads: seq<Lead>, id: string)
    ensures RemoveById(RemoveById(leads, id), id) == RemoveById(leads, id)
    decreases |leads|
  {
    if |leads| > 0 {
      RemoveIdempotent(leads[1..], id);
      if leads[0].id != id {
        assert ([leads[0]] + RemoveById(leads[1..], id))[1..] == RemoveById(leads[1..], id);
      }
    }
  }

  /** Deleting what was just inserted gives the list without that id; when
      the id was new, it gives back the original list. */
  lemma InsertThenDelete(leads: seq<Lead>, x: Lead)
    ensures ApplyChange(ApplyChange(leads, Inserted(x)).0, Deleted(x.id)).0 == RemoveById(leads, x.id)
    ensures !HasId(leads, x.id) ==> ApplyChange(ApplyChange(leads, Inserted(x)).0, Deleted(x.id)).0 == leads
  {
    assert ([x] + leads)[1..] == leads;
    if !HasId(leads, x.id) {
      RemoveNoneIsNoop(leads, x.id);
    }
  }

  /** Removing an id no lead carries changes nothing. */
  lemma {:induction false} RemoveNoneIsNoop(leads: seq<Lead>, id: string)
    requires !HasId(leads, id)
    ensures RemoveById(leads, id) == leads
    decreases |leads|
  {
    if |leads| > 0 {
      assert !HasId(leads[1..], id) by {
        forall i | 0 <= i < |leads[1..]| ensures leads[1..][i].id != id {
          assert leads[1..][i] == leads[i + 1];
        }
      }
      RemoveNoneIsNoop(leads[1..], id);
      assert [leads[0]] + leads[1..] == leads;
    }
  }

  /** Deleting after an update of the same id is the same as deleting. */
  lemma {:induction false} UpdateThenDelete(leads: seq<Lead>, payload: Lead)
    ensures RemoveById(ReplaceById(leads, payload), payload.id) == RemoveById(leads, payload.id)
    decreases |leads|
  {
    if |leads| > 0 {
      UpdateThenDelete(leads[1..], payload);
      var head := if leads[0].id == payload.id then payload else leads[0];
      assert ReplaceById(leads, payload) == [head] + ReplaceById(leads[1..], payload);
      assert ([head] + ReplaceById(leads[1..], payload))[1..] == ReplaceById(leads[1..], payload);
    }
  }

  /** An insert does not deduplicate: inserting an id already listed leaves
      two leads with that id. */
  lemma InsertDuplicates(leads: seq<Lead>, x: Lead)
    requires HasId(leads, x.id)
    ensures Count(ApplyChange(leads, Inserted(x)).0, x.id) == Count(leads, x.id) + 1
    ensures Count(ApplyChange(leads, Inserted(x)).0, x.id) >= 2
  {
    assert ([x] + leads)[1..] == leads;
  }

  // ------------------------------------------------------------------ badges

  const ValueHigh: string := "bg-green-100 text-green-800"
  const ValueMedium: string := "bg-yellow-100 text-yellow-800"
  const ValueLow: string := "bg-gray-100 text-gray-800"
  const ValueOther: string := "bg-gray-100 text-gray-600"

  /** The value badge: distinct classes for high, medium and low, and the
      default class for anything else ("unknown" included). */
  function ValueBadgeColor(value: string): (r: string)
    ensures value == "high" <==> r == ValueHigh
    ensures value == "medium" <==> r == ValueMedium
    ensures value == "low" <==> r == ValueLow
    ensures value !in {"high", "medium", "low"} <==> r == ValueOther
  {
    match value
    case "high" => ValueHigh
    case "medium" => ValueMedium
    case "low" => ValueLow
    case _ => ValueOther
  }

  const StatusLive: string := "bg-blue-100 text-blue-800"
  const StatusOther: string := "bg-gray-100 text-gray-800"

  /** The status badge: one class for "live", one for every other status. */
  function StatusBadgeColor(status: string): (r: string)
    ensures r == StatusLive <==> status == "live"
    ensures r == StatusOther <==> status != "live"
  {
    if status == "live" then StatusLive else StatusOther
  }
}

=== FILE: js_values.dfy ===
/** JavaScript values as the leads edge function sees them after JSON parsing,
    together with the few pieces of JavaScript semantics its merge logic
    relies on: truthiness, property reads, strict equality and spreading. */
module JsValues {

  /** `None` plays the role of JavaScript's `undefined` (an absent key). */
  datatype Option<+T> = None | Some(value: T)

  /** The outcome of a step that may throw; the message is carried into the
      500 response built by the handler's catch block. */
  datatype Result<+T> = Ok(value: T) | Err(message: string) {
    predicate IsFailure() { Err? }

    function PropagateFailure<U>(): Result<U>
      requires Err?
    {
      Err(message)
    }

    function Extract(): T
      requires Ok?
    {
      value
    }
  }

  /** A parsed JSON value. Numbers are integers; objects are maps because the
      merge logic never depends on the order of an object's keys. */
  datatype Json =
    | Null
    | Bool(b: bool)
    | Num(n: int)
    | Str(s: string)
    | Arr(items: seq<Json>)
    | Obj(fields: map<string, Json>)

  /** The fields of a request body, in `Object.entries` order. */
  type Entries = seq<(string, Json)>

  /** JavaScript truthiness of a possibly-undefined value. */
  function Truthy(v: Option<Json>): (r: bool)
    ensures r ==> v.Some? && !v.value.Null?
    ensures v.Some? && (v.value.Arr? || v.value.Obj?) ==> r
  {
    match v
    case None => false
    case Some(Null) => false
    case Some(Bool(b)) => b
    case Some(Num(n)) => n != 0
    case Some(Str(s)) => s != ""
    case Some(_) => true
  }

  predicate IsPrimitive(v: Json) {
    !v.Arr? && !v.Obj?
  }

  /** `m[k]` on a plain object: `undefined` when the key is absent. */
  function Field(m: map<string, Json>, k: string): (r: Option<Json>)
    ensures r.Some? <==> k in m
    ensures r.Some? ==> r.value == m[k]
  {
    if k in m then Some(m[k]) else None
  }

  /** The property read `v.key`: it throws on `null`, finds the field of an
      object, and is `undefined` on every other value (the keys read by the
      handler are never built-in properties of strings, numbers or arrays). */
  function GetProp(v: Json, key: string): (r: Result<Option<Json>>)
    ensures r.Err? <==> v.Null?
    ensures r.Ok? && r.value.Some? ==> v.Obj? && key in v.fields && r.value.value == v.fields[key]
    ensures v.Obj? ==> r == Ok(Field(v.fields, key))
  {
    match v
    case Null => Err("Cannot read properties of null (reading '" + key + "')")
    case Obj(m) => Ok(Field(m, key))
    case _ => Ok(None)
  }

  /** `a === b` between two values of one request: parsed arrays and objects
      are distinct references, so only `undefined` and primitives compare equal. */
  function StrictEq(a: Option<Json>, b: Option<Json>): (r: bool)
    ensures r <==> a == b && (a.None? || IsPrimitive(a.value))
  {
    match (a, b)
    case (None, None) => true
    case (Some(x), Some(y)) => IsPrimitive(x) && x == y
    case _ => false
  }

  lemma StrictEqIsEquality(a: Option<Json>, b: Option<Json>)
    requires StrictEq(a, b)
    ensures a == b && StrictEq(b, a)
  {
  }

  /** The elements produced by the array spread `[...v]`: arrays give their
      items, strings their characters, and any other value is not iterable. */
  function SpreadItems(v: Json): (r: Result<seq<Json>>)
    ensures r.Ok? <==> v.Arr? || v.Str?
    ensures v.Arr? ==> r == Ok(v.items)
    ensures v.Str? ==> r.Ok? && |r.value| == |v.s|
  {
    match v
    case Arr(xs) => Ok(xs)
    case Str(s) => Ok(seq(|s|, i requires 0 <= i < |s| => Str([s[i]])))
    case _ => Err("value is not iterable")
  }

  /** `[...(v || [])]`: a falsy or absent value spreads to nothing. */
  function ExistingItems(v: Option<Json>): (r: Result<seq<Json>>)
    ensures !Truthy(v) ==> r == Ok([])
    ensures Truthy(v) && v.value.Arr? ==> r == Ok(v.value.items)
  {
    if Truthy(v) then SpreadItems(v.value) else Ok([])
  }

  /** `body[key]`: the first entry carrying that key, if any. */
  function Lookup(es: Entries, key: string): (r: Option<Json>)
    ensures r.Some? <==> exists i :: 0 <= i < |es| && es[i].0 == key
    ensures r.Some? ==> exists i :: 0 <= i < |es| && es[i] == (key, r.value)
  {
    if |es| == 0 then None
    else if es[0].0 == key then Some(es[0].1)
    else
      var r := Lookup(es[1..], key);
      assert forall i :: 1 <= i < |es| ==> es[i] == es[1..][i - 1];
      r
  }

  predicate HasKey(es: Entries, key: string) {
    exists i :: 0 <= i < |es| && es[i].0 == key
  }

  /** No key occurs twice: `JSON.parse` keeps one value per key, so the
      entries of a parsed object never repeat a key. */
  predicate DistinctKeys(es: Entries) {
    forall i, j :: 0 <= i < j < |es| ==> es[i].0 != es[j].0
  }

  /** The entries of a parsed request body. */
  type ObjectEntries = es: Entries | DistinctKeys(es) witness []

  /** On a parsed object every entry is the one a property read finds. */
  lemma {:induction false} LookupDistinct(es: Entries, i: nat)
    requires DistinctKeys(es) && i < |es|
    ensures Lookup(es, es[i].0) == Some(es[i].1)
    decreases i
  {
    if i > 0 {
      assert es[0].0 != es[i].0;
      assert DistinctKeys(es[1..]) by {
        forall a, b | 0 <= a < b < |es[1..]| ensures es[1..][a].0 != es[1..][b].0 {
          assert es[1..][a] == es[a + 1] && es[1..][b] == es[b + 1];
        }
      }
      assert es[1..][i - 1] == es[i];
      LookupDistinct(es[1..], i - 1);
    }
  }

  /** In a parsed object, no entry before or after a given one repeats its key. */
  lemma DistinctAround(pre: Entries, key: string, v: Json, post: Entries)
    requires DistinctKeys(pre + [(key, v)] + post)
    ensures forall i :: 0 <= i < |pre| ==> pre[i].0 != key
    ensures forall i :: 0 <= i < |post| ==> post[i].0 != key
  {
    var es := pre + [(key, v)] + post;
    assert es[|pre|] == (key, v);
    forall i | 0 <= i < |pre| ensures pre[i].0 != key {
      assert es[i] == pre[i];
    }
    forall i | 0 <= i < |post| ensures post[i].0 != key {
      assert es[|pre| + 1 + i] == post[i];
    }
  }
}

=== FILE: lead_details.dfy ===
/** The lead detail view: its two realtime handlers (a lead update replaces
    the local lead, a message insert appends to the transcript), the
    sentiment trend over the last two history entries, and the display
    state chosen for each document. */
module LeadDetails {
  import opened JsValues
  import opened LeadRecord

  datatype Trend = Up | Down | Stable

  /** The trend between two consecutive scores. */
  function Compare(previous: int, current: int): (t: Trend)
    ensures t == Up <==> current > previous
    ensures t == Down <==> current < previous
    ensures t == Stable <==> current == previous
  {
    if current > previous then Up
    else if current < previous then Down
    else Stable
  }

  /** The trend shown next to the score: absent without a lead, without a
      history or with fewer than two entries; otherwise the comparison of
      the last score with the one before it. */
  function SentimentTrend(lead: Option<Lead>): (r: Option<Trend>)
    ensures r.None? <==>
      lead.None? || lead.value.sentimentHistory.None? || |lead.value.sentimentHistory.value| < 2
    ensures r.Some? ==>
      var h := lead.value.sentimentHistory.value;
      r.value == Compare(h[|h| - 2].score, h[|h| - 1].score)
  {
    if lead.None? || lead.value.sentimentHistory.None? || |lead.value.sentimentHistory.value| < 2 then None
    else
      var history := lead.value.sentimentHistory.value;
      var current := history[|history| - 1].score;
      var previous := history[|history| - 2].score;
      Some(Compare(previous, current))
  }

  /** A lead carrying the given history and nothing else of interest. */
  function WithHistory(lead: Lead, h: seq<HistoryEntry>): Lead {
    lead.(sentimentHistory := Some(h))
  }

  /** Only the last two entries matter: any earlier entries can be dropped
      or replaced without changing the trend. */
  lemma TrendOnlyLastTwo(lead: Lead, earlier: seq<HistoryEntry>, a: HistoryEntry, b: HistoryEntry)
    ensures SentimentTrend(Some(WithHistory(lead, earlier + [a, b])))
         == SentimentTrend(Some(WithHistory(lead, [a, b])))
  {
    var h := earlier + [a, b];
    assert h[|h| - 2] == a && h[|h| - 1] == b;
  }

  /** Appending one entry to a non-empty history gives the trend from the
      previous last score to the new one: the trend the server's history
      append leads the view to show. */
  lemma TrendAfterAppend(lead: Lead, h: seq<HistoryEntry>, e: HistoryEntry)
    requires |h| >= 1
    ensures SentimentTrend(Some(WithHistory(lead, h + [e]))) == Some(Compare(h[|h| - 1].score, e.score))
  {
    var g := h + [e];
    assert g[|g| - 2] == h[|h| - 1] && g[|g| - 1] == e;
  }

  /** A single entry never has a trend, however the lead looks otherwise. */
  lemma NoTrendFromOneEntry(lead: Lead, e: HistoryEntry)
    ensures SentimentTrend(Some(WithHistory(lead, [e]))) == None
  {
  }

  /** Whether the chart is drawn: `sentiment_history?.length > 0`. */
  function ShowsChart(lead: Lead): (r: bool)
    ensures r <==> exists e :: lead.sentimentHistory.Some? && e in lead.sentimentHistory.value
  {
    match lead.sentimentHistory
    case None => false
    case Some(h) =>
      if |h| > 0 then assert h[0] in h; true else false
  }

  /** A trend implies a chart, never the other way round alone. */
  lemma TrendImpliesChart(lead: Lead)
    requires SentimentTrend(Some(lead)).Some?
    ensures ShowsChart(lead)
  {
    assert lead.sentimentHistory.value[0] in lead.sentimentHistory.value;
  }

  // ------------------------------------------------------------ view state

  /** The view's realtime state: the lead shown, the transcript, and the
      "live update" indicator. */
  datatype DetailState = DetailState(lead: Option<Lead>, messages: seq<Message>, indicator: bool)

  datatype DetailEvent = LeadUpdated(payload: Lead) | MessageInserted(message: Message)

  /** One realtime event. A lead update replaces the whole local lead; a
      message insert appends the payload to the transcript. Both raise the
      indicator and leave the other part of the state as it was. */
  function Apply(s: DetailState, e: DetailEvent): (r: DetailState)
    ensures r.indicator
    ensures e.LeadUpdated? ==> r.lead == Some(e.payload) && r.messages == s.messages
    ensures e.MessageInserted? ==>
      r.lead == s.lead && |r.messages| == |s.messages| + 1
      && r.messages[..|s.messages|] == s.messages && r.messages[|s.messages|] == e.message
  {
    match e
    case LeadUpdated(payload) => s.(lead := Some(payload), indicator := true)
    case MessageInserted(m) => s.(messages := s.messages + [m], indicator := true)
  }

  /** A run of events, in arrival order. */
  function ApplyAll(s: DetailState, es: seq<DetailEvent>): (r: DetailState)
    ensures |es| > 0 ==> r.indicator
    ensures |es| == 0 ==> r == s
    ensures |r.messages| >= |s.messages| && r.messages[..|s.messages|] == s.messages
    decreases |es|
  {
    if |es| == 0 then s else ApplyAll(Apply(s, es[0]), es[1..])
  }

  /** The messages a run of events inserts, in order. */
  function Inserted(es: seq<DetailEvent>): (r: seq<Message>)
    ensures forall m :: m in r <==> MessageInserted(m) in es
    ensures |r| <= |es|
    decreases |es|
  {
    if |es| == 0 then []
    else if es[0].MessageInserted? then [es[0].message] + Inserted(es[1..])
    else Inserted(es[1..])
  }

  /** The transcript only ever grows at its end: after any run of events it
      is the old transcript followed by every inserted message in arrival
      order, whatever lead updates were interleaved. */
  lemma {:induction false} TranscriptAppendOnly(s: DetailState, es: seq<DetailEvent>)
    ensures ApplyAll(s, es).messages == s.messages + Inserted(es)
    decreases |es|
  {
    if |es| > 0 {
      TranscriptAppendOnly(Apply(s, es[0]), es[1..]);
      if es[0].MessageInserted? {
        assert s.messages + [es[0].message] + Inserted(es[1..])
            == s.messages + ([es[0].message] + Inserted(es[1..]));
      }
    }
  }

  /** The payload of the last lead update in a run, if there is one. */
  function LastUpdate(es: seq<DetailEvent>): (r: Option<Lead>)
    ensures r.Some? ==> exists i :: 0 <= i < |es| && es[i] == LeadUpdated(r.value)
                          && forall j :: i < j < |es| ==> es[j].MessageInserted?
    ensures r.None? <==> forall i :: 0 <= i < |es| ==> es[i].MessageInserted?
    decreases |es|
  {
    if |es| == 0 then None
    else if es[|es| - 1].LeadUpdated? then Some(es[|es| - 1].payload)
    else
      var r := LastUpdate(es[..|es| - 1]);
      assert forall i :: 0 <= i < |es| - 1 ==> es[..|es| - 1][i] == es[i];
      r
  }

  /** Applying a run and then one more event is applying the longer run. */
  lemma {:induction false} ApplyAllSnoc(s: DetailState, es: seq<DetailEvent>, e: DetailEvent)
    ensures ApplyAll(s, es + [e]) == Apply(ApplyAll(s, es), e)
    decreases |es|
  {
    if |es| == 0 {
      assert ([] + [e])[1..] == [];
    } else {
      assert (es + [e])[0] == es[0];
      assert (es + [e])[1..] == es[1..] + [e];
      ApplyAllSnoc(Apply(s, es[0]), es[1..], e);
    }
  }

  /** The lead shown after a run is the payload of its last lead update, or
      the lead shown before when the run holds none; any event at all
      raises the indicator. */
  lemma {:induction false} LastUpdateWins(s: DetailState, es: seq<DetailEvent>)
    ensures ApplyAll(s, es).lead == (if LastUpdate(es).Some? then LastUpdate(es) else s.lead)
    ensures |es| > 0 ==> ApplyAll(s, es).indicator
    decreases |es|
  {
    if |es| > 0 {
      var init := es[..|es| - 1];
      assert init + [es[|es| - 1]] == es;
      ApplyAllSnoc(s, init, es[|es| - 1]);
      LastUpdateWins(s, init);
    }
  }

  // ------------------------------------------------------------ documents

  /** What the row of a document offers: a "Generating..." note, a download
      link, or "Not available". */
  datatype DocumentState = Generating | Downloadable(href: string, saveAs: string) | NotAvailable

  /** A generating status wins over any url; otherwise a non-empty url gives
      a download link named after the file; otherwise nothing is offered. */
  function DocumentDisplay(doc: Document): (r: DocumentState)
    ensures r == Generating <==> doc.status == "generating"
    ensures r.Downloadable? <==>
      doc.status != "generating" && doc.url.Some? && doc.url.value != ""
    ensures r.Downloadable? ==> r.href == doc.url.value && r.saveAs == doc.filename
    ensures r == NotAvailable <==>
      doc.status != "generating" && (doc.url.None? || doc.url.value == "")
  {
    if doc.status == "generating" then Generating
    else if doc.url.Some? && doc.url.value != "" then Downloadable(doc.url.value, doc.filename)
    else NotAvailable
  }

  /** The rows of the document list over `(lead.documents || [])`: no row
      when the documents are absent, otherwise one per document, in order. */
  function DocumentRows(lead: Lead): (r: seq<DocumentState>)
    ensures lead.documents.None? ==> r == []
    ensures lead.documents.Some? ==> |r| == |lead.documents.value|
    ensures lead.documents.Some? ==>
      forall i :: 0 <= i < |r| ==> r[i] == DocumentDisplay(lead.documents.value[i])
  {
    var docs := if lead.documents.Some? then lead.documents.value else [];
    seq(|docs|, i requires 0 <= i < |docs| => DocumentDisplay(docs[i]))
  }
}

=== FILE: lead_record.dfy ===
/** The records the browser views work on: a lead as the list and detail
    views read it, its history entries and documents, and transcript
    messages. History and documents are optional because the views guard
    against a payload that lacks them. */
module LeadRecord {
  import opened JsValues

  datatype HistoryEntry = HistoryEntry(timestamp: string, score: int, reason: string)

  datatype Document = Document(docType: string, status: string, url: Option<string>, filename: string)

  datatype Lead = Lead(
    id: string,
    createdAt: string,
    companyName: string,
    projectName: string,
    sentimentScore: int,
    value: string,
    term: string,
    teamSize: int,
    status: string,
    userId: Option<string>,
    sentimentHistory: Option<seq<HistoryEntry>>,
    projectSummary: string,
    importantNotes: string,
    transcript: string,
    documents: Option<seq<Document>>,
    contactName: string,
    contactEmail: string,
    contactPhone: string
  )

  datatype Role = User | Agent

  datatype Message = Message(id: string, leadId: string, role: Role, text: string, createdAt: string)

  /** The class a sentiment score is shown with, shared by both views:
      green from 70, yellow from 40, red below. */
  const SentimentHigh: string := "text-green-600"
  const SentimentMid: string := "text-yellow-600"
  const SentimentLow: string := "text-red-600"

  function SentimentColor(score: int): (r: string)
    ensures r in {SentimentHigh, SentimentMid, SentimentLow}
    ensures r == SentimentHigh <==> score >= 70
    ensures r == SentimentMid <==> 40 <= score < 70
    ensures r == SentimentLow <==> score < 40
  {
    if score >= 70 then SentimentHigh
    else if score >= 40 then SentimentMid
    else SentimentLow
  }

  /** The band of a colour: 0 for red, 1 for yellow, 2 for green. */
  function Band(color: string): nat {
    if color == SentimentHigh then 2 else if color == SentimentMid then 1 else 0
  }

  /** A higher score never gets a lower band. */
  lemma SentimentColorMonotone(a: int, b: int)
    requires a <= b
    ensures Band(SentimentColor(a)) <= Band(SentimentColor(b))
  {
  }
}

=== FILE: leads_endpoint.dfy ===
/** The leads edge function as a pure function from (store, request) to
    (response, store): path parsing, method dispatch, create with its
    defaults, and the PATCH orchestration around the merge engine. The
    database is a map from lead id to row. */
module LeadsEndpoint {
  import opened JsValues
  import opened Strings
  import opened Reconciler

  type Store = map<string, Row>

  /** `body` holds the `Object.entries` of the parsed JSON value (a number
      or boolean has none); it is `None` when `req.json()` rejects the
      payload or yields `null`, both of which end in a 500. */
  datatype Request = Request(verb: string, pathname: string, body: Option<ObjectEntries>)

  datatype Body =
    | NoBody
    | Error(message: string)
    | OneLead(lead: Row)
    | LeadList(leads: set<Row>)

  datatype Response = Response(status: int, body: Body)

  /** Values the environment supplies on create: the id and `created_at` the
      store assigns, and the clock reading used for the first history entry. */
  datatype ServerAssigned = ServerAssigned(id: string, createdAt: string, now: string)

  const NotFound: Response := Response(404, Error("Lead not found"))
  const MissingNames: Response := Response(400, Error("company_name and project_name are required"))
  const MissingId: Response := Response(400, Error("Lead ID is required"))
  const NoValidFields: Response := Response(400, Error("No valid fields to update"))
  const NotAllowed: Response := Response(405, Error("Method not allowed"))
  const MalformedBody: string := "Request body is not valid JSON"
  const DuplicateId: string := "duplicate key value violates unique constraint"

  // ------------------------------------------------------------------- path

  /** `parts.findIndex(part => part === x)`. */
  function IndexOf(parts: seq<string>, x: string): (r: Option<nat>)
    ensures r.Some? ==> r.value < |parts| && parts[r.value] == x && x !in parts[..r.value]
    ensures r.None? ==> x !in parts
  {
    if |parts| == 0 then None
    else if parts[0] == x then Some(0)
    else
      match IndexOf(parts[1..], x)
      case None => None
      case Some(i) =>
        assert parts[..i + 1] == [parts[0]] + parts[1..][..i];
        Some(i + 1)
  }

  /** The non-empty segments of a pathname. */
  function Segments(pathname: string): (r: seq<string>)
    ensures forall i :: 0 <= i < |r| ==> r[i] != "" && '/' !in r[i]
  {
    var r := NonEmpty(Split(pathname, '/'));
    assert forall i :: 0 <= i < |r| ==> r[i] in Split(pathname, '/');
    r
  }

  /** The lead id: the segment right after the first `leads` segment. */
  function LeadIdFromPath(pathname: string): (r: Option<string>)
    ensures r.Some? ==> r.value != "" && '/' !in r.value
    ensures r.Some? ==> "leads" in Segments(pathname)
  {
    var parts := Segments(pathname);
    match IndexOf(parts, "leads")
    case Some(i) => if |parts| > i + 1 then Some(parts[i + 1]) else None
    case None => None
  }

  /** The id is the first non-empty segment after the first `leads` segment;
      there is none when `leads` is absent or is the last segment. An id is
      never empty and never contains a slash. */
  lemma LeadIdCharacterised(pathname: string)
    ensures var parts := Segments(pathname);
            && (LeadIdFromPath(pathname).None? <==>
                  "leads" !in parts ||
                  exists i :: 0 <= i < |parts| && parts[i] == "leads" && "leads" !in parts[..i] && i == |parts| - 1)
            && (LeadIdFromPath(pathname).Some? ==>
                  exists i :: 0 <= i < |parts| - 1 && parts[i] == "leads" && "leads" !in parts[..i]
                    && LeadIdFromPath(pathname).value == parts[i + 1])
            && (LeadIdFromPath(pathname).Some? ==>
                  LeadIdFromPath(pathname).value != "" && '/' !in LeadIdFromPath(pathname).value)
  {
    var parts := Segments(pathname);
    var idx := IndexOf(parts, "leads");
    if idx.Some? {
      forall i | 0 <= i < |parts| && parts[i] == "leads" && "leads" !in parts[..i]
        ensures i == idx.value
      {
        FirstOccurrenceUnique(parts, "leads", i, idx.value);
      }
      if |parts| > idx.value + 1 {
        var p := parts[idx.value + 1];
        assert p in parts;
        assert p in Split(pathname, '/');
      }
    }
  }

  /** Two first occurrences of the same value are the same index. */
  lemma FirstOccurrenceUnique(parts: seq<string>, x: string, i: nat, j: nat)
    requires i < |parts| && parts[i] == x && x !in parts[..i]
    requires j < |parts| && parts[j] == x && x !in parts[..j]
    ensures i == j
  {
  }

  /** `findIndex` finds a value right after a prefix that does not contain it. */
  lemma IndexOfAfterPrefix(prefix: seq<string>, x: string, tail: seq<string>)
    requires x !in prefix
    ensures IndexOf(prefix + [x] + tail, x) == Some(|prefix|)
  {
    var parts := prefix + [x] + tail;
    assert parts[|prefix|] == x;
    assert parts[..|prefix|] == prefix;
    var idx := IndexOf(parts, x);
    assert x in parts;
    FirstOccurrenceUnique(parts, x, |prefix|, idx.value);
  }

  /** An absolute path built from plain segments splits back into them. */
  lemma SegmentsOfPath(parts: seq<string>)
    requires forall i :: 0 <= i < |parts| ==> parts[i] != "" && '/' !in parts[i]
    ensures Segments(Join([""] + parts, '/')) == parts
  {
    var segs := [""] + parts;
    forall i | 0 <= i < |segs| ensures '/' !in segs[i] {
      if i > 0 { assert segs[i] == parts[i - 1]; }
    }
    SplitJoin(segs, '/');
    assert segs[0] == "" && segs[1..] == parts;
    assert NonEmpty(segs) == NonEmpty(parts);
    NonEmptyKeeps(parts);
  }

  /** The pathname `/<prefix>/leads/<id>`. */
  function UrlPath(prefix: seq<string>, id: string): string {
    Join([""] + prefix + ["leads", id], '/')
  }

  /** The documented URL shape `/functions/v1/leads/:id` (any prefix of
      plain segments without `leads`) yields exactly that id. */
  lemma LeadIdOfUrl(prefix: seq<string>, id: string)
    requires forall i :: 0 <= i < |prefix| ==> prefix[i] != "" && prefix[i] != "leads" && '/' !in prefix[i]
    requires id != "" && '/' !in id
    ensures LeadIdFromPath(UrlPath(prefix, id)) == Some(id)
  {
    var parts := prefix + ["leads"] + [id];
    assert [""] + prefix + ["leads", id] == [""] + parts;
    assert forall i :: 0 <= i < |parts| ==> parts[i] != "" && '/' !in parts[i] by {
      forall i | 0 <= i < |parts| ensures parts[i] != "" && '/' !in parts[i] {
        if i < |prefix| { assert parts[i] == prefix[i]; }
      }
    }
    SegmentsOfPath(parts);
    assert "leads" !in prefix;
    LeadIdAfterPrefix(prefix, id, Join([""] + parts, '/'));
  }

  lemma LeadIdAfterPrefix(prefix: seq<string>, id: string, path: string)
    requires "leads" !in prefix
    requires Segments(path) == prefix + ["leads"] + [id]
    ensures LeadIdFromPath(path) == Some(id)
  {
    var parts := prefix + ["leads"] + [id];
    IndexOfAfterPrefix(prefix, "leads", [id]);
    assert IndexOf(parts, "leads") == Some(|prefix|);
    assert parts[|prefix| + 1] == id;
  }

  // ----------------------------------------------------------------- create

  function OrDefault(v: Option<Json>, d: Json): Json {
    if v.Some? then v.value else d
  }

  const DefaultDocument: Json := Obj(map[
    "type" := Str("presentation"),
    "status" := Str("generating"),
    "url" := Null,
    "filename" := Str("presentation.pdf")
  ])

  /** The columns written by POST. */
  const CreateColumns: set<string> := {
    "id", "created_at", "company_name", "project_name", "sentiment_score",
    "value", "term", "team_size", "status", "user_id", "sentiment_history",
    "documents", "project_summary", "important_notes", "transcript",
    "contact_name", "contact_email", "contact_phone"
  }

  /** The value POST writes to one column: the caller's names, the
      destructuring defaults, one synthesised history entry, the default
      presentation, and empty text fields. */
  function NewLeadColumn(body: ObjectEntries, env: ServerAssigned, column: string): Json {
    var score := OrDefault(Lookup(body, "sentiment_score"), Num(50));
    match column
    case "id" => Str(env.id)
    case "created_at" => Str(env.createdAt)
    case "sentiment_score" => score
    case "value" => OrDefault(Lookup(body, "value"), Str("unknown"))
    case "term" => OrDefault(Lookup(body, "term"), Str("unknown"))
    case "team_size" => OrDefault(Lookup(body, "team_size"), Num(1))
    case "status" => OrDefault(Lookup(body, "status"), Str("live"))
    case "sentiment_history" =>
      Arr([Obj(map["timestamp" := Str(env.now), "score" := score, "reason" := Str("Initial sentiment")])])
    case "documents" => Arr([DefaultDocument])
    case "company_name" => OrDefault(Lookup(body, "company_name"), Null)
    case "project_name" => OrDefault(Lookup(body, "project_name"), Null)
    case "user_id" => OrDefault(Lookup(body, "user_id"), Null)
    case _ => Str("")
  }

  /** The row POST inserts: one value per create column. */
  function NewLeadRow(body: ObjectEntries, env: ServerAssigned): Row {
    map c | c in CreateColumns :: NewLeadColumn(body, env, c)
  }

  /** POST: validate the names, then insert a new row under a fresh id. */
  function HandlePost(store: Store, body: Option<ObjectEntries>, env: ServerAssigned): (r: (Response, Store))
    ensures r.0.status in {201, 400, 500}
    ensures r.0.status == 201 <==>
      body.Some? && Truthy(Lookup(body.value, "company_name")) && Truthy(Lookup(body.value, "project_name"))
      && env.id !in store
    ensures r.0.status == 201 ==> r.1.Keys == store.Keys + {env.id}
    ensures r.0.status != 201 ==> r.1 == store
  {
    match body
    case None => (Response(500, Error(MalformedBody)), store)
    case Some(es) =>
      if !Truthy(Lookup(es, "company_name")) || !Truthy(Lookup(es, "project_name")) then
        (MissingNames, store)
      else if env.id in store then
        (Response(500, Error(DuplicateId)), store)
      else
        var row := NewLeadRow(es, env);
        (Response(201, OneLead(row)), store[env.id := row])
  }

  // ------------------------------------------------------------------ patch

  /** `select("sentiment_history, documents")`. */
  function MergeColumns(row: Row): (r: Row)
    ensures r.Keys == row.Keys * {HistoryKey, DocumentsKey}
    ensures forall k :: k in r ==> r[k] == row[k]
  {
    map k | k in row && (k == HistoryKey || k == DocumentsKey) :: row[k]
  }

  /** PATCH: compute the update record and persist it into the stored row. */
  function HandlePatch(store: Store, id: Option<string>, body: Option<ObjectEntries>): (r: (Response, Store))
    ensures r.0.status in {200, 400, 404, 500}
    ensures r.0.status != 200 ==> r.1 == store
    ensures r.0.status == 200 ==> id.Some? && id.value in store && r.1.Keys == store.Keys
    ensures r.0.status == 200 ==> r.0.body == OneLead(r.1[id.value])
    ensures id.None? ==> r.0 == MissingId
  {
    match id
    case None => (MissingId, store)
    case Some(lid) =>
      match body
      case None => (Response(500, Error(MalformedBody)), store)
      case Some(es) =>
        if NeedsCurrent(es) && lid !in store then (NotFound, store)
        else
          var current := if NeedsCurrent(es) then Some(MergeColumns(store[lid])) else None;
          match ComputeUpdates(es, current)
          case Err(m) => (Response(500, Error(m)), store)
          case Ok(u) =>
            if |u| == 0 then (NoValidFields, store)
            else if lid !in store then (NotFound, store)
            else
              var row := Persist(store[lid], u);
              (Response(200, OneLead(row)), store[lid := row])
  }

  // --------------------------------------------------------------- dispatch

  /** GET: one stored lead by id, or every stored lead. */
  function HandleGet(store: Store, id: Option<string>): (r: Response)
    ensures r.status in {200, 404}
    ensures r.status == 404 <==> id.Some? && id.value !in store
  {
    match id
    case Some(lid) => if lid in store then Response(200, OneLead(store[lid])) else NotFound
    case None => Response(200, LeadList(store.Values))
  }

  /** The request handler. */
  function Handle(store: Store, req: Request, env: ServerAssigned): (r: (Response, Store))
    ensures r.0.status in {200, 201, 400, 404, 405, 500}
    ensures store.Keys <= r.1.Keys
    ensures r.1.Keys != store.Keys ==> req.verb == "POST" && r.0.status == 201
    ensures req.verb == "GET" ==> r == (HandleGet(store, LeadIdFromPath(req.pathname)), store)
    ensures req.verb == "POST" ==> r == HandlePost(store, req.body, env)
    ensures req.verb == "PATCH" ==> r == HandlePatch(store, LeadIdFromPath(req.pathname), req.body)
  {
    if req.verb == "OPTIONS" then (Response(200, NoBody), store)
    else if req.verb == "GET" then (HandleGet(store, LeadIdFromPath(req.pathname)), store)
    else if req.verb == "POST" then HandlePost(store, req.body, env)
    else if req.verb == "PATCH" then HandlePatch(store, LeadIdFromPath(req.pathname), req.body)
    else (NotAllowed, store)
  }

  // ----------------------------------------------------------- properties

  /** A preflight always succeeds with an empty body and never touches the store. */
  lemma PreflightAlwaysOk(store: Store, req: Request, env: ServerAssigned)
    requires req.verb == "OPTIONS"
    ensures Handle(store, req, env) == (Response(200, NoBody), store)
  {
  }

  /** Any method other than GET, POST, PATCH or OPTIONS (DELETE included) is
      refused with 405, and 405 is answered for nothing else; GET never
      touches the store. */
  lemma MethodDispatch(store: Store, req: Request, env: ServerAssigned)
    ensures req.verb !in {"GET", "POST", "PATCH", "OPTIONS"} ==> Handle(store, req, env) == (NotAllowed, store)
    ensures req.verb in {"GET", "OPTIONS"} ==> Handle(store, req, env).1 == store
    ensures Handle(store, req, env).0.status == 405 <==> req.verb !in {"GET", "POST", "PATCH", "OPTIONS"}
  {
  }

  /** GET by id returns the stored lead or 404; GET without id lists every lead. */
  lemma GetReturnsStored(store: Store, req: Request, env: ServerAssigned)
    requires req.verb == "GET"
    ensures var (resp, after) := Handle(store, req, env);
            && after == store
            && (LeadIdFromPath(req.pathname).Some? && LeadIdFromPath(req.pathname).value in store ==>
                  resp == Response(200, OneLead(store[LeadIdFromPath(req.pathname).value])))
            && (LeadIdFromPath(req.pathname).Some? && LeadIdFromPath(req.pathname).value !in store ==>
                  resp == NotFound)
            && (LeadIdFromPath(req.pathname).None? ==>
                  resp == Response(200, LeadList(store.Values)))
  {
  }

  /** A create is refused with 400 exactly when a name is missing or falsy,
      and then nothing is inserted. */
  lemma CreateValidation(store: Store, body: ObjectEntries, env: ServerAssigned)
    ensures var (resp, after) := HandlePost(store, Some(body), env);
            && (resp.status == 400 <==> !Truthy(Lookup(body, "company_name")) || !Truthy(Lookup(body, "project_name")))
            && (resp.status == 400 ==> resp == MissingNames && after == store)
  {
  }

  /** A successful create answers 201 with the new lead and inserts it,
      and only it, under the id the store assigned. */
  lemma CreateInserts(store: Store, body: ObjectEntries, env: ServerAssigned)
    requires Truthy(Lookup(body, "company_name")) && Truthy(Lookup(body, "project_name"))
    requires env.id !in store
    ensures var (resp, after) := HandlePost(store, Some(body), env);
            && resp.status == 201 && resp.body.OneLead?
            && after.Keys == store.Keys + {env.id}
            && (forall k :: k in store ==> after[k] == store[k])
            && after[env.id] == resp.body.lead
            && resp.body.lead == NewLeadRow(body, env)
            && resp.body.lead.Keys == CreateColumns
            && resp.body.lead["id"] == Str(env.id)
            && resp.body.lead["company_name"] == Lookup(body, "company_name").value
            && resp.body.lead["project_name"] == Lookup(body, "project_name").value
  {
    var row := NewLeadRow(body, env);
    PostInserts(store, body, env);
    NewLeadRowKeys(body, env);
    NewLeadRowNames(body, env);
    var after := store[env.id := row];
    assert after.Keys == store.Keys + {env.id};
    assert forall k :: k in store ==> after[k] == store[k];
  }

  /** A valid create with a fresh id answers with, and stores, the row the body builds. */
  lemma PostInserts(store: Store, body: ObjectEntries, env: ServerAssigned)
    requires Truthy(Lookup(body, "company_name")) && Truthy(Lookup(body, "project_name"))
    requires env.id !in store
    ensures HandlePost(store, Some(body), env) ==
      (Response(201, OneLead(NewLeadRow(body, env))), store[env.id := NewLeadRow(body, env)])
  {
  }

  /** The built row has the create columns and the new id. */
  lemma NewLeadRowKeys(body: ObjectEntries, env: ServerAssigned)
    ensures NewLeadRow(body, env).Keys == CreateColumns
    ensures NewLeadRow(body, env)["id"] == Str(env.id)
  {
    assert NewLeadRow(body, env)["id"] == NewLeadColumn(body, env, "id");
  }

  /** The built row carries the supplied names. */
  lemma NewLeadRowNames(body: ObjectEntries, env: ServerAssigned)
    requires Lookup(body, "company_name").Some? && Lookup(body, "project_name").Some?
    ensures NewLeadRow(body, env)["company_name"] == Lookup(body, "company_name").value
    ensures NewLeadRow(body, env)["project_name"] == Lookup(body, "project_name").value
  {
    var row := NewLeadRow(body, env);
    assert "company_name" in CreateColumns && "project_name" in CreateColumns;
    assert row["company_name"] == NewLeadColumn(body, env, "company_name");
    assert row["project_name"] == NewLeadColumn(body, env, "project_name");
  }

  /** Absent optional fields get the destructuring defaults. */
  lemma CreateDefaults(body: ObjectEntries, env: ServerAssigned)
    ensures var row := NewLeadRow(body, env);
            && (!HasKey(body, "sentiment_score") ==> row["sentiment_score"] == Num(50))
            && (!HasKey(body, "value") ==> row["value"] == Str("unknown"))
            && (!HasKey(body, "term") ==> row["term"] == Str("unknown"))
            && (!HasKey(body, "team_size") ==> row["team_size"] == Num(1))
            && (!HasKey(body, "status") ==> row["status"] == Str("live"))
            && (!HasKey(body, "user_id") ==> row["user_id"] == Null)
  {
  }

  /** Optional fields the caller sends are stored as sent, `null` included. */
  lemma CreateKeepsSupplied(body: ObjectEntries, env: ServerAssigned)
    ensures var row := NewLeadRow(body, env);
            && (HasKey(body, "sentiment_score") ==> Lookup(body, "sentiment_score") == Some(row["sentiment_score"]))
            && (HasKey(body, "value") ==> Lookup(body, "value") == Some(row["value"]))
            && (HasKey(body, "term") ==> Lookup(body, "term") == Some(row["term"]))
            && (HasKey(body, "team_size") ==> Lookup(body, "team_size") == Some(row["team_size"]))
            && (HasKey(body, "status") ==> Lookup(body, "status") == Some(row["status"]))
            && (HasKey(body, "user_id") ==> Lookup(body, "user_id") == Some(row["user_id"]))
  {
  }

  /** The text and contact fields start empty whatever the caller sent. */
  lemma CreateEmptyText(body: ObjectEntries, env: ServerAssigned)
    ensures var row := NewLeadRow(body, env);
            && row["project_summary"] == Str("") && row["important_notes"] == Str("")
            && row["transcript"] == Str("") && row["contact_name"] == Str("")
            && row["contact_email"] == Str("") && row["contact_phone"] == Str("")
  {
  }

  /** A new lead has exactly one "Initial sentiment" history entry, whose
      score is the lead's score, and exactly the default presentation document. */
  lemma CreateInitialHistory(body: ObjectEntries, env: ServerAssigned)
    ensures var row := NewLeadRow(body, env);
            && row["sentiment_history"].Arr? && |row["sentiment_history"].items| == 1
            && row["sentiment_history"].items[0].Obj?
            && row["sentiment_history"].items[0].fields["score"] == row["sentiment_score"]
            && row["sentiment_history"].items[0].fields["reason"] == Str("Initial sentiment")
            && row["documents"] == Arr([DefaultDocument])
            && UniqueTypes(row["documents"].items)
  {
  }

  /** Reading a lead back right after creating it returns the created lead. */
  lemma CreateThenGet(store: Store, body: ObjectEntries, env: ServerAssigned, prefix: seq<string>)
    requires Truthy(Lookup(body, "company_name")) && Truthy(Lookup(body, "project_name"))
    requires env.id !in store && env.id != "" && '/' !in env.id
    requires forall i :: 0 <= i < |prefix| ==> prefix[i] != "" && prefix[i] != "leads" && '/' !in prefix[i]
    ensures var (created, after) := HandlePost(store, Some(body), env);
            var get := Request("GET", UrlPath(prefix, env.id), None);
            Handle(after, get, env).0 == created.(status := 200)
  {
    LeadIdOfUrl(prefix, env.id);
  }

  /** PATCH without an id in the path is refused before anything is read. */
  lemma PatchRequiresId(store: Store, req: Request, env: ServerAssigned)
    requires req.verb == "PATCH" && LeadIdFromPath(req.pathname).None?
    ensures Handle(store, req, env) == (MissingId, store)
  {
  }

  /** A body with no allowed key is refused as "No valid fields to update",
      whether or not the lead exists, and the store is unchanged. */
  lemma PatchNoValidFields(store: Store, id: string, body: ObjectEntries)
    requires NoAllowedKey(body)
    ensures HandlePatch(store, Some(id), Some(body)) == (NoValidFields, store)
  {
    NoAllowedNoFetch(body);
    FoldNoAllowed(map[], None, body);
  }

  /** A body with an allowed key is never refused as "No valid fields". */
  lemma PatchValidFields(store: Store, id: string, body: ObjectEntries)
    requires !NoAllowedKey(body)
    ensures HandlePatch(store, Some(id), Some(body)).0 != NoValidFields
  {
    var current := if NeedsCurrent(body) && id in store then Some(MergeColumns(store[id])) else None;
    if ComputeUpdates(body, current).Ok? {
      ComputeUpdatesEmpty(body, current);
    }
  }

  /** When a merge field is truthy and the lead does not exist, PATCH
      answers 404 without writing. */
  lemma PatchMissingLead(store: Store, id: string, body: ObjectEntries)
    requires NeedsCurrent(body) && id !in store
    ensures HandlePatch(store, Some(id), Some(body)) == (NotFound, store)
  {
  }

  /** PATCH writes only the addressed lead, never its id or `created_at`, and
      leaves every column that no body entry writes as it was. */
  lemma PatchFrame(store: Store, id: string, body: ObjectEntries)
    requires HandlePatch(store, Some(id), Some(body)).0.status == 200
    ensures var after := HandlePatch(store, Some(id), Some(body)).1;
            && id in store && after.Keys == store.Keys
            && (forall other :: other in store && other != id ==> after[other] == store[other])
            && forall k :: k in store[id] && (forall i :: 0 <= i < |body| ==> !Writes(body[i].0, k)) ==>
                 k in after[id] && after[id][k] == store[id][k]
  {
    var current := if NeedsCurrent(body) then Some(MergeColumns(store[id])) else None;
    var u := ComputeUpdates(body, current).value;
    forall k | k in store[id] && (forall i :: 0 <= i < |body| ==> !Writes(body[i].0, k))
      ensures k in PatchedRow(store, id, body) && PatchedRow(store, id, body)[k] == store[id][k]
    {
      FoldFrame(map[], current, body, k);
    }
  }

  function PatchedRow(store: Store, id: string, body: ObjectEntries): Row
    requires HandlePatch(store, Some(id), Some(body)).0.status == 200
  {
    var s := HandlePatch(store, Some(id), Some(body)).1;
    if id in s then s[id] else map[]
  }

  /** The entry of a key that occurs exactly once is what `body[key]` reads. */
  lemma LookupSole(pre: Entries, key: string, value: Json, post: Entries)
    requires forall i :: 0 <= i < |pre| ==> pre[i].0 != key
    requires forall i :: 0 <= i < |post| ==> post[i].0 != key
    ensures Lookup(pre + [(key, value)] + post, key) == Some(value)
  {
    var rest := [(key, value)] + post;
    assert pre + [(key, value)] + post == pre + rest;
    LookupSkip(pre, key, rest);
  }

  /** Entries with other keys in front do not change what `body[key]` reads. */
  lemma {:induction false} LookupSkip(pre: Entries, key: string, rest: Entries)
    requires forall i :: 0 <= i < |pre| ==> pre[i].0 != key
    ensures Lookup(pre + rest, key) == Lookup(rest, key)
    decreases |pre|
  {
    if |pre| > 0 {
      assert (pre + rest)[0] == pre[0];
      assert (pre + rest)[1..] == pre[1..] + rest;
      LookupSkip(pre[1..], key, rest);
    } else {
      assert pre + rest == rest;
    }
  }

  /** The merge columns of a row read back as the row's own columns. */
  lemma MergeColumnsField(row: Row)
    ensures Field(MergeColumns(row), HistoryKey) == Field(row, HistoryKey)
    ensures Field(MergeColumns(row), DocumentsKey) == Field(row, DocumentsKey)
  {
  }

  /** A successful PATCH carrying a `sentiment_history` array stores the
      existing entries followed by the incoming ones: the prior history is
      an unchanged prefix and the length is old plus new. Unless a later key
      writes `sentiment_score`, a newest entry with a score sets the score. */
  lemma PatchAppendsHistory(store: Store, id: string, pre: Entries, items: seq<Json>, post: Entries)
    requires DistinctKeys(pre + [(HistoryKey, Arr(items))] + post)
    requires HandlePatch(store, Some(id), Some(pre + [(HistoryKey, Arr(items))] + post)).0.status == 200
    ensures id in store && ExistingItems(Field(store[id], HistoryKey)).Ok?
    ensures var prior := ExistingItems(Field(store[id], HistoryKey)).value;
            var row := HandlePatch(store, Some(id), Some(pre + [(HistoryKey, Arr(items))] + post)).1[id];
            && HistoryKey in row && row[HistoryKey].Arr?
            && var h := row[HistoryKey].items;
            && |h| == |prior| + |items|
            && h[..|prior|] == prior
            && h[|prior|..] == items
            && ((forall i :: 0 <= i < |post| ==> post[i].0 != ScoreKey) && |h| > 0 &&
                GetProp(h[|h| - 1], "score").Ok? && GetProp(h[|h| - 1], "score").value.Some? ==>
                  ScoreKey in row && row[ScoreKey] == GetProp(h[|h| - 1], "score").value.value)
  {
    var body := pre + [(HistoryKey, Arr(items))] + post;
    DistinctAround(pre, HistoryKey, Arr(items), post);
    LookupSole(pre, HistoryKey, Arr(items), post);
    assert NeedsCurrent(body);
    var current := MergeColumns(store[id]);
    MergeColumnsField(store[id]);
    HistoryPatchAppends(current, pre, items, post);
    var prior := ExistingItems(Field(store[id], HistoryKey)).value;
    assert (prior + items)[..|prior|] == prior;
    assert (prior + items)[|prior|..] == items;
  }

  /** A successful PATCH carrying a `documents` array stores the existing
      documents with the incoming ones upserted by type; if the existing
      types were unique the stored ones are, and the stored types are
      exactly the existing ones plus the incoming ones. */
  lemma PatchUpsertsDocuments(store: Store, id: string, pre: Entries, items: seq<Json>, post: Entries)
    requires DistinctKeys(pre + [(DocumentsKey, Arr(items))] + post)
    requires HandlePatch(store, Some(id), Some(pre + [(DocumentsKey, Arr(items))] + post)).0.status == 200
    ensures id in store && ExistingItems(Field(store[id], DocumentsKey)).Ok?
    ensures var existing := ExistingItems(Field(store[id], DocumentsKey)).value;
            var row := HandlePatch(store, Some(id), Some(pre + [(DocumentsKey, Arr(items))] + post)).1[id];
            && UpsertAll(existing, items).Ok?
            && DocumentsKey in row && row[DocumentsKey] == Arr(UpsertAll(existing, items).value)
            && (UniqueTypes(existing) ==> UniqueTypes(row[DocumentsKey].items))
            && (UniqueTypes(existing) ==> Types(row[DocumentsKey].items) == Types(existing) + IncomingTypes(items))
  {
    var body := pre + [(DocumentsKey, Arr(items))] + post;
    DistinctAround(pre, DocumentsKey, Arr(items), post);
    LookupSole(pre, DocumentsKey, Arr(items), post);
    assert NeedsCurrent(body);
    var current := MergeColumns(store[id]);
    MergeColumnsField(store[id]);
    DocumentsPatchUpserts(current, pre, items, post);
    var existing := ExistingItems(Field(store[id], DocumentsKey)).value;
    if UniqueTypes(existing) {
      UpsertAllInvariant(existing, items);
    }
  }

  /** A successful PATCH stores the value sent for an allowed key that is not
      merged (any key but an array-valued `sentiment_history` or
      `documents`) exactly as sent. A `sentiment_score` is stored as sent
      unless a later `sentiment_history` entry derives it afresh. */
  lemma PatchCopiesScalar(store: Store, id: string, pre: Entries, key: string, value: Json, post: Entries)
    requires DistinctKeys(pre + [(key, value)] + post)
    requires key in AllowedFields
    requires !((key == HistoryKey || key == DocumentsKey) && value.Arr?)
    requires key == ScoreKey ==> forall i :: 0 <= i < |post| ==> post[i].0 != HistoryKey
    requires HandlePatch(store, Some(id), Some(pre + [(key, value)] + post)).0.status == 200
    ensures id in store
    ensures var row := HandlePatch(store, Some(id), Some(pre + [(key, value)] + post)).1[id];
            key in row && row[key] == value
  {
    var body := pre + [(key, value)] + post;
    DistinctAround(pre, key, value, post);
    assert forall i :: 0 <= i < |post| ==> !Writes(post[i].0, key);
    var current := if NeedsCurrent(body) then Some(MergeColumns(store[id])) else None;
    var u := ComputeUpdates(body, current).value;
    LastWriteWins(current, pre, key, value, post);
    assert key in u && u[key] == Some(value);
  }

  /** A PATCH whose merge fields are absent or falsy only copies values, so
      repeating it changes nothing further. */
  lemma PatchIdempotent(store: Store, id: string, body: ObjectEntries)
    requires !NeedsCurrent(body)
    ensures var once := HandlePatch(store, Some(id), Some(body)).1;
            HandlePatch(once, Some(id), Some(body)).1 == once
  {
    match ComputeUpdates(body, None)
    case Err(_) =>
    case Ok(u) =>
      if |u| != 0 && id in store {
        PersistIdempotent(store[id], u);
      }
  }
}

=== FILE: reconciler.dfy ===
/** The PATCH merge engine of the leads edge function: filters the body
    against the allow-list and computes the `updates` record field by field,
    appending to `sentiment_history`, upserting `documents` by `type`, and
    copying every other allowed value verbatim. */
module Reconciler {
  import opened JsValues

  /** A stored lead: column name to JSON value. */
  type Row = map<string, Json>

  /** The `updates` record. A value is `None` when the handler assigned
      `undefined` to the key: it counts as a key, but is dropped when the
      record is serialised for the store. */
  type Updates = map<string, Option<Json>>

  const HistoryKey: string := "sentiment_history"
  const DocumentsKey: string := "documents"
  const ScoreKey: string := "sentiment_score"

  const AllowedFields: seq<string> := [
    "company_name", "project_name", "sentiment_score", "sentiment_history",
    "value", "term", "team_size", "status", "user_id", "documents",
    "project_summary", "important_notes", "transcript",
    "contact_name", "contact_email", "contact_phone"
  ]

  /** The current lead is fetched only when one of the merge fields is truthy. */
  function NeedsCurrent(body: Entries): (r: bool)
    ensures r ==> exists i :: 0 <= i < |body| && (body[i].0 == HistoryKey || body[i].0 == DocumentsKey)
  {
    Truthy(Lookup(body, HistoryKey)) || Truthy(Lookup(body, DocumentsKey))
  }

  // ---------------------------------------------------------------- documents

  /** The `type` a document is matched on (`undefined` for non-objects). */
  function TypeOf(doc: Json): Option<Json> {
    if doc.Obj? then Field(doc.fields, "type") else None
  }

  /** The status an incoming document is given before it is merged: a truthy
      `url` forces "ready", a missing or falsy `status` becomes "generating",
      otherwise the document is left alone. Reading `url` of `null` and
      assigning `status` on any other non-object throw. */
  function DeriveStatus(doc: Json): (r: Result<map<string, Json>>)
    ensures r.Ok? <==> doc.Obj?
    ensures r.Ok? ==> "status" in r.value && r.value.Keys == doc.fields.Keys + {"status"}
    ensures r.Ok? ==> forall k :: k in doc.fields && k != "status" ==> r.value[k] == doc.fields[k]
    ensures r.Ok? && Truthy(Field(doc.fields, "url")) ==> r.value["status"] == Str("ready")
    ensures r.Ok? && !Truthy(Field(doc.fields, "url")) && !Truthy(Field(doc.fields, "status")) ==>
              r.value["status"] == Str("generating")
    ensures r.Ok? && !Truthy(Field(doc.fields, "url")) && Truthy(Field(doc.fields, "status")) ==>
              r.value == doc.fields
  {
    match doc
    case Null => Err("Cannot read properties of null (reading 'url')")
    case Obj(m) =>
      if Truthy(Field(m, "url")) then Ok(m["status" := Str("ready")])
      else if !Truthy(Field(m, "status")) then Ok(m["status" := Str("generating")])
      else Ok(m)
    case _ => Err("Cannot create property 'status' on a primitive value")
  }

  /** `findIndex(doc => doc.type === t)`: the first document whose type is
      strictly equal to `t`; reading the type of a `null` entry met before a
      match throws. */
  function FindByType(docs: seq<Json>, t: Option<Json>): (r: Result<Option<nat>>)
    ensures r.Ok? && r.value.Some? ==>
              && r.value.value < |docs|
              && !docs[r.value.value].Null?
              && StrictEq(TypeOf(docs[r.value.value]), t)
              && forall j :: 0 <= j < r.value.value ==> !docs[j].Null? && !StrictEq(TypeOf(docs[j]), t)
    ensures r.Ok? && r.value.None? ==>
              forall j :: 0 <= j < |docs| ==> !docs[j].Null? && !StrictEq(TypeOf(docs[j]), t)
    ensures r.Err? ==>
              exists k :: 0 <= k < |docs| && docs[k].Null? &&
                forall j :: 0 <= j < k ==> !docs[j].Null? && !StrictEq(TypeOf(docs[j]), t)
    decreases |docs|
  {
    if |docs| == 0 then Ok(None)
    else if docs[0].Null? then
      Result<Option<nat>>.Err("Cannot read properties of null (reading 'type')")
    else if StrictEq(TypeOf(docs[0]), t) then Ok(Some(0))
    else
      match FindByType(docs[1..], t)
      case Err(m) =>
        ghost var k :| 0 <= k < |docs[1..]| && docs[1..][k].Null? &&
          forall j :: 0 <= j < k ==> !docs[1..][j].Null? && !StrictEq(TypeOf(docs[1..][j]), t);
        assert docs[k + 1].Null?;
        assert forall j :: 0 <= j < k + 1 ==> !docs[j].Null? && !StrictEq(TypeOf(docs[j]), t) by {
          forall j | 1 <= j < k + 1 ensures !docs[j].Null? && !StrictEq(TypeOf(docs[j]), t) {
            assert docs[j] == docs[1..][j - 1];
          }
        }
        Err(m)
      case Ok(None) => Ok(None)
      case Ok(Some(i)) => Ok(Some(i + 1))
  }

  /** `{...existing, ...incoming}`: incoming fields win. Spreading a
      non-object existing document contributes no fields. */
  function Overlay(existing: Json, incoming: map<string, Json>): (r: Json)
    ensures r.Obj?
    ensures existing.Obj? ==> r.fields.Keys == existing.fields.Keys + incoming.Keys
    ensures !existing.Obj? ==> r.fields.Keys == incoming.Keys
    ensures forall k :: k in incoming ==> r.fields[k] == incoming[k]
    ensures existing.Obj? ==> forall k :: k in existing.fields && k !in incoming ==> r.fields[k] == existing.fields[k]
  {
    Obj((if existing.Obj? then existing.fields else map[]) + incoming)
  }

  /** One step of the `forEach` over incoming documents: derive the status,
      then overwrite the first document of the same type or append. */
  function UpsertOne(docs: seq<Json>, incoming: Json): (r: Result<seq<Json>>)
    ensures r.Ok? <==> incoming.Obj? && FindByType(docs, TypeOf(incoming)).Ok?
  {
    var d :- DeriveStatus(incoming);
    DerivedType(incoming);
    var found :- FindByType(docs, Field(d, "type"));
    match found
    case Some(i) => Ok(docs[i := Overlay(docs[i], d)])
    case None => Ok(docs + [Obj(d)])
  }

  /** The whole `forEach`, in the order of the incoming array. */
  function UpsertAll(docs: seq<Json>, incoming: seq<Json>): (r: Result<seq<Json>>)
    ensures r.Ok? ==> |r.value| >= |docs|
    decreases |incoming|
  {
    if |incoming| == 0 then Ok(docs)
    else
      var next :- UpsertOne(docs, incoming[0]);
      UpsertAllLength(docs, incoming[0]);
      UpsertAll(next, incoming[1..])
  }

  /** The `forEach` applies the incoming documents in array order: upserting
      `a + b` is upserting `a`, then `b` into the result, and the first
      failure ends the loop. */
  lemma {:induction false} UpsertAllSplit(docs: seq<Json>, a: seq<Json>, b: seq<Json>)
    ensures UpsertAll(docs, a + b) ==
            (match UpsertAll(docs, a)
             case Err(m) => Err(m)
             case Ok(d) => UpsertAll(d, b))
    decreases |a|
  {
    if |a| == 0 {
      assert a + b == b;
    } else {
      assert (a + b)[0] == a[0];
      assert (a + b)[1..] == a[1..] + b;
      match UpsertOne(docs, a[0])
      case Err(m) =>
      case Ok(next) => UpsertAllSplit(next, a[1..], b);
    }
  }

  /** Upserting a one-document array is one upsert step. */
  lemma UpsertAllSingle(docs: seq<Json>, x: Json)
    ensures UpsertAll(docs, [x]) == UpsertOne(docs, x)
  {
    assert [x][1..] == [];
  }

  lemma UpsertAllLength(docs: seq<Json>, incoming: Json)
    ensures UpsertOne(docs, incoming).Ok? ==> |UpsertOne(docs, incoming).value| >= |docs|
  {
  }

  /** No two documents have strictly equal types. */
  predicate UniqueTypes(docs: seq<Json>) {
    forall i, j :: 0 <= i < j < |docs| ==> !StrictEq(TypeOf(docs[i]), TypeOf(docs[j]))
  }

  /** The types present in a document list. */
  function Types(docs: seq<Json>): set<Option<Json>> {
    set i | 0 <= i < |docs| :: TypeOf(docs[i])
  }

  /** The incoming type after status derivation equals the raw incoming type. */
  lemma DerivedType(incoming: Json)
    requires DeriveStatus(incoming).Ok?
    ensures Field(DeriveStatus(incoming).value, "type") == TypeOf(incoming)
  {
  }

  /** Overwriting a matched document keeps its type. */
  lemma OverlayKeepsType(existing: Json, d: map<string, Json>)
    requires StrictEq(TypeOf(existing), Field(d, "type"))
    ensures TypeOf(Overlay(existing, d)) == TypeOf(existing)
  {
    StrictEqIsEquality(TypeOf(existing), Field(d, "type"));
  }

  /** Upserting one document: either the first document of the same type is
      overwritten in place by the incoming fields, or the document is
      appended; every other document keeps its value and position. */
  lemma UpsertOneShape(docs: seq<Json>, incoming: Json)
    requires UpsertOne(docs, incoming).Ok?
    ensures incoming.Obj?
    ensures var r := UpsertOne(docs, incoming).value;
            var d := DeriveStatus(incoming).value;
            || (&& |r| == |docs|
                && (exists i :: 0 <= i < |docs| && StrictEq(TypeOf(docs[i]), TypeOf(incoming))
                      && (forall j :: 0 <= j < i ==> !StrictEq(TypeOf(docs[j]), TypeOf(incoming)))
                      && r[i] == Overlay(docs[i], d)
                      && forall j :: 0 <= j < |docs| && j != i ==> r[j] == docs[j]))
            || (&& r == docs + [Obj(d)]
                && forall j :: 0 <= j < |docs| ==> !StrictEq(TypeOf(docs[j]), TypeOf(incoming)))
  {
    DerivedType(incoming);
  }

  /** An existing document with the same string type as an incoming object,
      and no `null` document before it, is merged in place: the upsert
      succeeds and the list keeps its length. */
  lemma UpsertMatchInPlace(docs: seq<Json>, incoming: Json, i: nat)
    requires incoming.Obj? && i < |docs| && docs[i].Obj?
    requires TypeOf(incoming).Some? && TypeOf(incoming).value.Str?
    requires TypeOf(docs[i]) == TypeOf(incoming)
    requires forall j :: 0 <= j < i ==> !docs[j].Null?
    ensures UpsertOne(docs, incoming).Ok?
    ensures |UpsertOne(docs, incoming).value| == |docs|
  {
    assert StrictEq(TypeOf(docs[i]), TypeOf(incoming));
    DerivedType(incoming);
  }

  /** A document whose type matches no incoming document is left untouched. */
  lemma UpsertOneFrame(docs: seq<Json>, incoming: Json, j: nat)
    requires UpsertOne(docs, incoming).Ok?
    requires j < |docs| && !StrictEq(TypeOf(docs[j]), TypeOf(incoming))
    ensures UpsertOne(docs, incoming).value[j] == docs[j]
  {
    DerivedType(incoming);
  }

  /** The upserted document carries every incoming field, and its status is
      "ready" when the incoming `url` is truthy, "generating" when it has
      neither a truthy `url` nor a truthy `status`. */
  lemma UpsertStatusDerived(docs: seq<Json>, incoming: Json)
    requires UpsertOne(docs, incoming).Ok?
    ensures incoming.Obj?
    ensures var r := UpsertOne(docs, incoming).value;
            exists p :: 0 <= p < |r| && r[p].Obj? && TypeOf(r[p]) == TypeOf(incoming)
              && (forall k :: k in incoming.fields && k != "status" ==> k in r[p].fields && r[p].fields[k] == incoming.fields[k])
              && "status" in r[p].fields
              && (Truthy(Field(incoming.fields, "url")) ==> r[p].fields["status"] == Str("ready"))
              && (!Truthy(Field(incoming.fields, "url")) && !Truthy(Field(incoming.fields, "status")) ==>
                    r[p].fields["status"] == Str("generating"))
  {
    var r := UpsertOne(docs, incoming).value;
    var d := DeriveStatus(incoming).value;
    DerivedType(incoming);
    var found := FindByType(docs, Field(d, "type")).value;
    if found.Some? {
      var i := found.value;
      OverlayKeepsType(docs[i], d);
      StrictEqIsEquality(TypeOf(docs[i]), Field(d, "type"));
      assert r[i] == Overlay(docs[i], d);
    } else {
      assert r[|docs|] == Obj(d);
    }
  }

  /** Upserting one document keeps types unique. */
  lemma UpsertOneKeepsUnique(docs: seq<Json>, incoming: Json)
    requires UniqueTypes(docs)
    requires UpsertOne(docs, incoming).Ok?
    ensures UniqueTypes(UpsertOne(docs, incoming).value)
  {
    var r := UpsertOne(docs, incoming).value;
    var d := DeriveStatus(incoming).value;
    var found := FindByType(docs, Field(d, "type")).value;
    if found.Some? {
      OverlayKeepsType(docs[found.value], d);
      assert forall j :: 0 <= j < |r| ==> TypeOf(r[j]) == TypeOf(docs[j]);
    } else {
      DerivedType(incoming);
      assert forall j :: 0 <= j < |docs| ==> TypeOf(r[j]) == TypeOf(docs[j]);
      assert TypeOf(r[|docs|]) == Field(d, "type");
    }
  }

  /** After one upsert the types present are the prior ones plus the incoming one. */
  lemma UpsertOneTypes(docs: seq<Json>, incoming: Json)
    requires UpsertOne(docs, incoming).Ok?
    ensures Types(UpsertOne(docs, incoming).value) == Types(docs) + {TypeOf(incoming)}
  {
    var r := UpsertOne(docs, incoming).value;
    var d := DeriveStatus(incoming).value;
    DerivedType(incoming);
    var found := FindByType(docs, Field(d, "type")).value;
    if found.Some? {
      var i := found.value;
      OverlayKeepsType(docs[i], d);
      StrictEqIsEquality(TypeOf(docs[i]), Field(d, "type"));
      assert forall j :: 0 <= j < |r| ==> TypeOf(r[j]) == TypeOf(docs[j]);
      assert TypeOf(incoming) == TypeOf(docs[i]);
    } else {
      assert forall j :: 0 <= j < |docs| ==> TypeOf(r[j]) == TypeOf(docs[j]);
      assert TypeOf(r[|docs|]) == TypeOf(incoming);
      assert Types(r) == Types(docs) + {TypeOf(incoming)} by {
        forall t | t in Types(r) ensures t in Types(docs) + {TypeOf(incoming)} {
          var j :| 0 <= j < |r| && TypeOf(r[j]) == t;
        }
      }
    }
  }

  /** The types of an incoming document list. */
  function IncomingTypes(incoming: seq<Json>): set<Option<Json>> {
    set i | 0 <= i < |incoming| :: TypeOf(incoming[i])
  }

  /** The whole upsert: if the current types are unique, so are the result's,
      and the result holds exactly the current types plus the incoming ones. */
  lemma {:induction false} UpsertAllInvariant(docs: seq<Json>, incoming: seq<Json>)
    requires UniqueTypes(docs)
    requires UpsertAll(docs, incoming).Ok?
    ensures UniqueTypes(UpsertAll(docs, incoming).value)
    ensures Types(UpsertAll(docs, incoming).value) == Types(docs) + IncomingTypes(incoming)
    decreases |incoming|
  {
    if |incoming| > 0 {
      var next := UpsertOne(docs, incoming[0]).value;
      UpsertOneKeepsUnique(docs, incoming[0]);
      UpsertOneTypes(docs, incoming[0]);
      UpsertAllInvariant(next, incoming[1..]);
      assert IncomingTypes(incoming) == {TypeOf(incoming[0])} + IncomingTypes(incoming[1..]) by {
        forall t | t in IncomingTypes(incoming)
          ensures t in {TypeOf(incoming[0])} + IncomingTypes(incoming[1..])
        {
          var j :| 0 <= j < |incoming| && TypeOf(incoming[j]) == t;
          if j > 0 { assert incoming[j] == incoming[1..][j - 1]; }
        }
      }
    } else {
      assert IncomingTypes(incoming) == {};
    }
  }

  /** Documents whose type matches no incoming document keep their value and
      position, and the current documents stay a positional prefix in length. */
  lemma {:induction false} UpsertAllFrame(docs: seq<Json>, incoming: seq<Json>, j: nat)
    requires UpsertAll(docs, incoming).Ok?
    requires j < |docs|
    requires forall k :: 0 <= k < |incoming| ==> !StrictEq(TypeOf(docs[j]), TypeOf(incoming[k]))
    ensures UpsertAll(docs, incoming).value[j] == docs[j]
    decreases |incoming|
  {
    if |incoming| > 0 {
      var next := UpsertOne(docs, incoming[0]).value;
      UpsertOneFrame(docs, incoming[0], j);
      UpsertAllLength(docs, incoming[0]);
      assert forall k :: 0 <= k < |incoming[1..]| ==> incoming[1..][k] == incoming[k + 1];
      UpsertAllFrame(next, incoming[1..], j);
    }
  }

  // ------------------------------------------------------------------ history

  /** `sentiment_history` merge: the stored entries followed by the incoming
      ones; when the result is non-empty `sentiment_score` is set to the last
      entry's `score` (possibly `undefined`). */
  function MergeHistory(u: Updates, current: Row, items: seq<Json>): (r: Result<Updates>)
    ensures r.Ok? <==> ExistingItems(Field(current, HistoryKey)).Ok? &&
                       (var h := ExistingItems(Field(current, HistoryKey)).value + items;
                        |h| > 0 ==> !h[|h| - 1].Null?)
  {
    var existing :- ExistingItems(Field(current, HistoryKey));
    var h := existing + items;
    var u1 := u[HistoryKey := Some(Arr(h))];
    if |h| > 0 then
      var score :- GetProp(h[|h| - 1], "score");
      Ok(u1[ScoreKey := score])
    else Ok(u1)
  }

  /** The history merge appends: the stored entries are an unchanged prefix,
      the length is prior plus new, and the score follows the newest entry. */
  lemma MergeHistoryAppends(u: Updates, current: Row, items: seq<Json>)
    requires MergeHistory(u, current, items).Ok?
    ensures var r := MergeHistory(u, current, items).value;
            var prior := ExistingItems(Field(current, HistoryKey)).value;
            && HistoryKey in r && r[HistoryKey] == Some(Arr(prior + items))
            && var h := prior + items;
            && |h| == |prior| + |items|
            && h[..|prior|] == prior
            && h[|prior|..] == items
            && (|h| > 0 ==> ScoreKey in r && r[ScoreKey] == GetProp(h[|h| - 1], "score").value)
            && (|h| == 0 ==> (ScoreKey in r <==> ScoreKey in u) && (ScoreKey in u ==> r[ScoreKey] == u[ScoreKey]))
            && forall k :: k != HistoryKey && k != ScoreKey ==> (k in r <==> k in u) && (k in u ==> r[k] == u[k])
  {
    var prior := ExistingItems(Field(current, HistoryKey)).value;
    var h := prior + items;
    assert h[..|prior|] == prior;
    assert h[|prior|..] == items;
  }

  // ------------------------------------------------------------- the record

  /** One iteration of the loop over `Object.entries(body)`. */
  function ApplyEntry(u: Updates, current: Option<Row>, key: string, value: Json): (r: Result<Updates>)
    ensures key !in AllowedFields ==> r == Ok(u)
    ensures r.Err? ==> (key == HistoryKey || key == DocumentsKey) && value.Arr? && current.Some?
    ensures r.Ok? ==> u.Keys <= r.value.Keys && (key in AllowedFields ==> key in r.value)
    ensures r.Ok? ==> forall k :: k in r.value ==> k in u || k in AllowedFields
  {
    if key !in AllowedFields then Ok(u)
    else if key == HistoryKey && value.Arr? && current.Some? then
      MergeHistory(u, current.value, value.items)
    else if key == DocumentsKey && value.Arr? && current.Some? then
      var existing :- ExistingItems(Field(current.value, DocumentsKey));
      var docs :- UpsertAll(existing, value.items);
      Ok(u[DocumentsKey := Some(Arr(docs))])
    else Ok(u[key := Some(value)])
  }

  /** The loop, left to right. */
  function Fold(u: Updates, current: Option<Row>, es: Entries): (r: Result<Updates>)
    ensures r.Ok? ==> forall k :: k in r.value ==> k in u || k in AllowedFields
    ensures r.Err? ==> current.Some?
    decreases |es|
  {
    if |es| == 0 then Ok(u)
    else
      var u1 :- ApplyEntry(u, current, es[0].0, es[0].1);
      Fold(u1, current, es[1..])
  }

  /** The `updates` record built from a request body. */
  function ComputeUpdates(body: Entries, current: Option<Row>): (r: Result<Updates>)
    ensures r.Ok? ==> forall k :: k in r.value ==> k in AllowedFields
    ensures current.None? ==> r.Ok?
  {
    Fold(map[], current, body)
  }

  /** Whether an entry with key `key` may assign `updates[k]`. */
  predicate Writes(key: string, k: string) {
    key in AllowedFields && (key == k || (key == HistoryKey && k == ScoreKey))
  }

  predicate NoAllowedKey(es: Entries) {
    forall i :: 0 <= i < |es| ==> es[i].0 !in AllowedFields
  }

  /** An entry that does not write `k` leaves `updates[k]` as it was. */
  lemma ApplyEntryFrame(u: Updates, current: Option<Row>, key: string, value: Json, k: string)
    requires !Writes(key, k)
    requires ApplyEntry(u, current, key, value).Ok?
    ensures var r := ApplyEntry(u, current, key, value).value;
            (k in r <==> k in u) && (k in u ==> r[k] == u[k])
  {
    if key in AllowedFields && key == HistoryKey && value.Arr? && current.Some? {
      MergeHistoryAppends(u, current.value, value.items);
    }
  }

  /** Keys no entry writes keep their value through the whole loop. */
  lemma {:induction false} FoldFrame(u: Updates, current: Option<Row>, es: Entries, k: string)
    requires forall i :: 0 <= i < |es| ==> !Writes(es[i].0, k)
    requires Fold(u, current, es).Ok?
    ensures var r := Fold(u, current, es).value;
            (k in r <==> k in u) && (k in u ==> r[k] == u[k])
    decreases |es|
  {
    if |es| > 0 {
      ApplyEntryFrame(u, current, es[0].0, es[0].1, k);
      var u1 := ApplyEntry(u, current, es[0].0, es[0].1).value;
      assert forall i :: 0 <= i < |es[1..]| ==> es[1..][i] == es[i + 1];
      FoldFrame(u1, current, es[1..], k);
    }
  }

  /** Running the loop over `a + b` is running it over `a`, then over `b`. */
  lemma {:induction false} FoldSplit(u: Updates, current: Option<Row>, a: Entries, b: Entries)
    ensures Fold(u, current, a + b) ==
            (match Fold(u, current, a)
             case Err(m) => Err(m)
             case Ok(v) => Fold(v, current, b))
    decreases |a|
  {
    if |a| == 0 {
      assert a + b == b;
    } else {
      assert (a + b)[0] == a[0];
      assert (a + b)[1..] == a[1..] + b;
      match ApplyEntry(u, current, a[0].0, a[0].1)
      case Err(m) =>
      case Ok(u1) => FoldSplit(u1, current, a[1..], b);
    }
  }

  /** A body without allowed keys produces no update at all. */
  lemma {:induction false} FoldNoAllowed(u: Updates, current: Option<Row>, es: Entries)
    requires NoAllowedKey(es)
    ensures Fold(u, current, es) == Ok(u)
    decreases |es|
  {
    if |es| > 0 {
      assert forall i :: 0 <= i < |es[1..]| ==> es[1..][i] == es[i + 1];
      FoldNoAllowed(u, current, es[1..]);
    }
  }

  /** The loop never removes a key, and every allowed key of the body ends up in `updates`. */
  lemma {:induction false} FoldKeys(u: Updates, current: Option<Row>, es: Entries)
    requires Fold(u, current, es).Ok?
    ensures u.Keys <= Fold(u, current, es).value.Keys
    ensures forall i :: 0 <= i < |es| && es[i].0 in AllowedFields ==> es[i].0 in Fold(u, current, es).value
    decreases |es|
  {
    if |es| > 0 {
      var u1 := ApplyEntry(u, current, es[0].0, es[0].1).value;
      if es[0].0 in AllowedFields && es[0].0 == HistoryKey && es[0].1.Arr? && current.Some? {
        MergeHistoryAppends(u, current.value, es[0].1.items);
      }
      assert u.Keys <= u1.Keys;
      assert es[0].0 in AllowedFields ==> es[0].0 in u1;
      FoldKeys(u1, current, es[1..]);
      forall i | 0 <= i < |es| && es[i].0 in AllowedFields
        ensures es[i].0 in Fold(u, current, es).value
      {
        if i > 0 { assert es[i] == es[1..][i - 1]; }
      }
    }
  }

  /** "No valid fields": the record is empty exactly when no key of the body is allowed. */
  lemma ComputeUpdatesEmpty(body: Entries, current: Option<Row>)
    requires ComputeUpdates(body, current).Ok?
    ensures ComputeUpdates(body, current).value == map[] <==> NoAllowedKey(body)
  {
    if NoAllowedKey(body) {
      FoldNoAllowed(map[], current, body);
    } else {
      FoldKeys(map[], current, body);
      var i :| 0 <= i < |body| && body[i].0 in AllowedFields;
      assert body[i].0 in ComputeUpdates(body, current).value;
    }
  }

  /** A body without allowed keys never triggers the fetch of the current lead. */
  lemma NoAllowedNoFetch(body: Entries)
    requires NoAllowedKey(body)
    ensures !NeedsCurrent(body)
  {
    assert HistoryKey in AllowedFields && DocumentsKey in AllowedFields;
  }

  /** The last entry writing an allowed, non-merged key decides its value:
      the value is copied verbatim. This is how a `sentiment_score` key placed
      after `sentiment_history` overrides the score derived from the history. */
  lemma LastWriteWins(current: Option<Row>, pre: Entries, key: string, value: Json, post: Entries)
    requires key in AllowedFields
    requires !(key == HistoryKey && value.Arr? && current.Some?)
    requires !(key == DocumentsKey && value.Arr? && current.Some?)
    requires forall i :: 0 <= i < |post| ==> !Writes(post[i].0, key)
    requires ComputeUpdates(pre + [(key, value)] + post, current).Ok?
    ensures var r := ComputeUpdates(pre + [(key, value)] + post, current).value;
            key in r && r[key] == Some(value)
  {
    var body := pre + [(key, value)] + post;
    FoldSplit(map[], current, pre + [(key, value)], post);
    FoldSplit(map[], current, pre, [(key, value)]);
    var v := Fold(map[], current, pre).value;
    var w := Fold(v, current, [(key, value)]).value;
    assert w == v[key := Some(value)];
    FoldFrame(w, current, post, key);
  }

  /** Appending to the history: given a body whose only `sentiment_history`
      entry is an array, the stored history becomes the existing entries
      followed by the incoming ones, and unless a later entry writes
      `sentiment_score`, the score is that of the newest entry. */
  lemma HistoryPatchAppends(current: Row, pre: Entries, items: seq<Json>, post: Entries)
    requires forall i :: 0 <= i < |post| ==> post[i].0 != HistoryKey
    requires ComputeUpdates(pre + [(HistoryKey, Arr(items))] + post, Some(current)).Ok?
    ensures ExistingItems(Field(current, HistoryKey)).Ok?
    ensures var r := ComputeUpdates(pre + [(HistoryKey, Arr(items))] + post, Some(current)).value;
            var prior := ExistingItems(Field(current, HistoryKey)).value;
            && HistoryKey in r
            && r[HistoryKey] == Some(Arr(prior + items))
            && (|prior + items| > 0 && (forall i :: 0 <= i < |post| ==> post[i].0 != ScoreKey) ==>
                  ScoreKey in r && GetProp((prior + items)[|prior + items| - 1], "score") == Ok(r[ScoreKey]))
  {
    var entry := (HistoryKey, Arr(items));
    var r := ComputeUpdates(pre + [entry] + post, Some(current)).value;
    FoldSplit(map[], Some(current), pre + [entry], post);
    FoldSplit(map[], Some(current), pre, [entry]);
    assert Fold(map[], Some(current), pre).Ok?;
    var v := Fold(map[], Some(current), pre).value;
    assert ApplyEntry(v, Some(current), HistoryKey, Arr(items)) == MergeHistory(v, current, items);
    assert [entry][1..] == [];
    assert Fold(v, Some(current), [entry]) == MergeHistory(v, current, items);
    var w := MergeHistory(v, current, items).value;
    assert Fold(w, Some(current), post) == Ok(r);
    MergeHistoryAppends(v, current, items);
    var prior := ExistingItems(Field(current, HistoryKey)).value;
    assert w[HistoryKey] == Some(Arr(prior + items));
    assert forall i :: 0 <= i < |post| ==> !Writes(post[i].0, HistoryKey);
    FoldFrame(w, Some(current), post, HistoryKey);
    if |prior + items| > 0 && (forall i :: 0 <= i < |post| ==> post[i].0 != ScoreKey) {
      assert forall i :: 0 <= i < |post| ==> !Writes(post[i].0, ScoreKey);
      FoldFrame(w, Some(current), post, ScoreKey);
    }
  }

  /** Upserting documents: given a body whose only `documents` entry is an
      array, the stored documents become the existing ones with every
      incoming document upserted by type, in order. */
  lemma DocumentsPatchUpserts(current: Row, pre: Entries, items: seq<Json>, post: Entries)
    requires forall i :: 0 <= i < |post| ==> post[i].0 != DocumentsKey
    requires ComputeUpdates(pre + [(DocumentsKey, Arr(items))] + post, Some(current)).Ok?
    ensures ExistingItems(Field(current, DocumentsKey)).Ok?
    ensures UpsertAll(ExistingItems(Field(current, DocumentsKey)).value, items).Ok?
    ensures var r := ComputeUpdates(pre + [(DocumentsKey, Arr(items))] + post, Some(current)).value;
            && DocumentsKey in r
            && r[DocumentsKey] == Some(Arr(UpsertAll(ExistingItems(Field(current, DocumentsKey)).value, items).value))
  {
    var entry := (DocumentsKey, Arr(items));
    var r := ComputeUpdates(pre + [entry] + post, Some(current)).value;
    FoldSplit(map[], Some(current), pre + [entry], post);
    FoldSplit(map[], Some(current), pre, [entry]);
    assert Fold(map[], Some(current), pre).Ok?;
    var v := Fold(map[], Some(current), pre).value;
    assert [entry][1..] == [];
    assert Fold(v, Some(current), [entry]) == ApplyEntry(v, Some(current), DocumentsKey, Arr(items));
    var w := ApplyEntry(v, Some(current), DocumentsKey, Arr(items)).value;
    assert Fold(w, Some(current), post) == Ok(r);
    assert forall i :: 0 <= i < |post| ==> !Writes(post[i].0, DocumentsKey);
    FoldFrame(w, Some(current), post, DocumentsKey);
  }

  /** The record applied to a stored row: `undefined` values are dropped by
      serialisation, every other key overwrites its column. */
  function Persist(row: Row, u: Updates): (r: Row)
    ensures forall k :: k in u && u[k].Some? ==> k in r && r[k] == u[k].value
    ensures forall k :: k in r && (k !in u || u[k].None?) ==> k in row && r[k] == row[k]
    ensures forall k :: k in row ==> k in r
  {
    row + map k | k in u && u[k].Some? :: u[k].value
  }

  /** Writing the same record twice is the same as writing it once. */
  lemma PersistIdempotent(row: Row, u: Updates)
    ensures Persist(Persist(row, u), u) == Persist(row, u)
  {
    var once := Persist(row, u);
    var twice := Persist(once, u);
    assert twice.Keys == once.Keys;
    forall k | k in once ensures twice[k] == once[k] {
    }
  }
}

=== FILE: router.dfy ===
/** The single-page router: the location hash and the signed-in flag pick
    the page and the lead id, a guard sends signed-out visitors home, and
    the render step chooses the view. */
module Router {
  import opened JsValues
  import Strings

  datatype Page = Home | DashboardPage | ApiDocsPage | LeadDetailsPage

  /** The router's two pieces of state: the current page and the lead id
      (`null` as None). */
  datatype Route = Route(page: Page, leadId: Option<string>)

  const HomeRoute: Route := Route(Home, None)

  const LeadPrefix: string := "lead/"

  /** `window.location.hash.slice(1)`: the hash without its leading `#`;
      the empty hash stays empty. */
  function StripHash(locationHash: string): (r: string)
    ensures |locationHash| > 0 ==> [locationHash[0]] + r == locationHash
    ensures |locationHash| == 0 ==> r == ""
  {
    if |locationHash| == 0 then "" else locationHash[1..]
  }

  /** `hash.split('/')[1]` for a hash that starts with "lead/": the text
      between the first and the second slash, or to the end. */
  function LeadSegment(hash: string): (r: string)
    requires |hash| >= |LeadPrefix| && hash[..|LeadPrefix|] == LeadPrefix
    ensures '/' !in r
    ensures |Strings.Split(hash, '/')| >= 2 && r == Strings.Split(hash, '/')[1]
  {
    var rest := hash[|LeadPrefix|..];
    assert hash == "lead" + ['/'] + rest;
    Strings.SplitCons("lead", '/', rest);
    Strings.Split(rest, '/')[0]
  }

  /** The hash-change handler: exact "dashboard" and "api-docs" pick their
      pages, a "lead/" prefix picks the detail page with the second
      segment as lead id, and anything else, or any hash at all while
      signed out, goes home. */
  function RouteOf(locationHash: string, signedIn: bool): (r: Route)
    ensures !signedIn ==> r == HomeRoute
    ensures r.leadId.Some? <==> r.page == LeadDetailsPage
    ensures r.page == DashboardPage <==> signedIn && StripHash(locationHash) == "dashboard"
    ensures r.page == ApiDocsPage <==> signedIn && StripHash(locationHash) == "api-docs"
    ensures r.page == LeadDetailsPage <==>
      signedIn && |StripHash(locationHash)| >= 5 && StripHash(locationHash)[..5] == LeadPrefix
  {
    var hash := StripHash(locationHash);
    if hash == "dashboard" && signedIn then
      assert hash[..5][0] == 'd';
      Route(DashboardPage, None)
    else if hash == "api-docs" && signedIn then
      assert hash[..5][0] == 'a';
      Route(ApiDocsPage, None)
    else if |hash| >= |LeadPrefix| && hash[..|LeadPrefix|] == LeadPrefix && signedIn then
      Route(LeadDetailsPage, Some(LeadSegment(hash)))
    else HomeRoute
  }

  /** The browser's location hash together with the router's state. */
  datatype RouterState = RouterState(locationHash: string, route: Route)

  /** The signed-out guard: a protected page is replaced by home and the
      location hash is cleared, while the lead id is left as it was; home,
      or any page while signed in, is left alone. */
  function Guard(st: RouterState, signedIn: bool): (g: RouterState)
    ensures !signedIn ==> g.route.page == Home
    ensures signedIn || st.route.page == Home ==> g == st
    ensures !signedIn && st.route.page != Home ==> g.locationHash == ""
    ensures g.route.leadId == st.route.leadId
  {
    if !signedIn && st.route.page != Home then RouterState("", st.route.(page := Home)) else st
  }

  datatype View = HomeView | DashboardView | ApiDocsView | LeadDetailsView(id: string)

  /** What is rendered: a protected view needs a signed-in user, and the
      detail view also a non-empty lead id; everything else falls back to
      the home view. */
  function Render(r: Route, signedIn: bool): (v: View)
    ensures !signedIn ==> v == HomeView
    ensures v == DashboardView <==> signedIn && r.page == DashboardPage
    ensures v == ApiDocsView <==> signedIn && r.page == ApiDocsPage
    ensures v.LeadDetailsView? <==>
      signedIn && r.page == LeadDetailsPage && r.leadId.Some? && r.leadId.value != ""
    ensures v.LeadDetailsView? ==> v.id == r.leadId.value
  {
    if r.page == DashboardPage && signedIn then DashboardView
    else if r.page == ApiDocsPage && signedIn then ApiDocsView
    else if r.page == LeadDetailsPage && signedIn && r.leadId.Some? && r.leadId.value != "" then
      LeadDetailsView(r.leadId.value)
    else HomeView
  }

  /** The view shown for a hash: routing, the guard, then rendering. */
  function Navigate(locationHash: string, signedIn: bool): (v: View)
    ensures !signedIn ==> v == HomeView
    ensures v.LeadDetailsView? ==> v.id != "" && '/' !in v.id
  {
    var st := Guard(RouterState(locationHash, RouteOf(locationHash, signedIn)), signedIn);
    Render(st.route, signedIn)
  }

  /** Signing out while a page is shown: the hash handler runs again and
      routes home, and the guard, which still sees the page shown before,
      clears the hash when that page was protected. */
  function SignOut(st: RouterState): (r: RouterState)
    ensures r.route == HomeRoute
    ensures st.route.page != Home ==> r.locationHash == ""
    ensures st.route.page == Home ==> r.locationHash == st.locationHash
  {
    RouterState(Guard(st, false).locationHash, RouteOf(st.locationHash, false))
  }

  /** Signing in: the hash handler runs again on the current hash. */
  function SignIn(st: RouterState): (r: RouterState)
    ensures r.locationHash == st.locationHash
    ensures r.route.page != Home ==> StripHash(st.locationHash) != ""
  {
    RouterState(st.locationHash, RouteOf(st.locationHash, true))
  }

  /** Because the guard clears the hash, signing out from a protected page
      and signing in again lands on home, not on the page left behind;
      without the reset the same hash would lead straight back to it. */
  lemma SignOutThenInIsHome(st: RouterState)
    requires st.route.page != Home
    ensures SignIn(SignOut(st)).route == HomeRoute
    ensures SignIn(SignOut(RouterState("#dashboard", st.route))).route == HomeRoute
    ensures SignIn(RouterState("#dashboard", st.route)).route == Route(DashboardPage, None)
  {
  }

  /** Signed out, every hash shows home and the lead id is null. */
  lemma SignedOutAlwaysHome(locationHash: string)
    ensures RouteOf(locationHash, false) == HomeRoute
    ensures Guard(RouterState(locationHash, RouteOf(locationHash, false)), false).route == HomeRoute
    ensures Navigate(locationHash, false) == HomeView
  {
  }

  /** The guard never lets a protected view render for a signed-out user,
      whatever state the router was left in. */
  lemma GuardedRenderIsHome(st: RouterState)
    ensures Render(Guard(st, false).route, false) == HomeView
    ensures Guard(st, false).route.page == Home
  {
  }

  /** The hash a link to a route carries. */
  function HashOf(page: Page, id: string): string {
    match page
    case Home => "#"
    case DashboardPage => "#dashboard"
    case ApiDocsPage => "#api-docs"
    case LeadDetailsPage => "#" + LeadPrefix + id
  }

  /** The hash of a lead link routes to that lead: the id comes back
      unchanged, provided it holds no slash. */
  lemma {:induction false} LeadLinkRoundTrip(id: string)
    requires '/' !in id
    ensures RouteOf(HashOf(LeadDetailsPage, id), true) == Route(LeadDetailsPage, Some(id))
  {
    var hash := LeadPrefix + id;
    assert StripHash(HashOf(LeadDetailsPage, id)) == hash;
    assert hash[..|LeadPrefix|] == LeadPrefix;
    assert hash[|LeadPrefix|..] == id;
    Strings.SplitNoSep(id, '/');
  }

  /** Segments after the lead id are ignored. */
  lemma {:induction false} LeadLinkIgnoresRest(id: string, rest: string)
    requires '/' !in id
    ensures RouteOf("#" + LeadPrefix + id + "/" + rest, true) == Route(LeadDetailsPage, Some(id))
  {
    var hash := LeadPrefix + id + "/" + rest;
    assert StripHash("#" + LeadPrefix + id + "/" + rest) == hash;
    assert hash[..|LeadPrefix|] == LeadPrefix;
    assert hash[|LeadPrefix|..] == id + ['/'] + rest;
    Strings.SplitCons(id, '/', rest);
  }

  /** Signed in, every page's link shows that page's view (a lead link
      needs a non-empty id without slashes). */
  lemma LinksShowTheirView(page: Page, id: string)
    requires page == LeadDetailsPage ==> id != "" && '/' !in id
    ensures Navigate(HashOf(page, id), true) ==
      match page
      case Home => HomeView
      case DashboardPage => DashboardView
      case ApiDocsPage => ApiDocsView
      case LeadDetailsPage => LeadDetailsView(id)
  {
    if page == LeadDetailsPage {
      LeadLinkRoundTrip(id);
    } else {
      assert StripHash(HashOf(page, id)) == HashOf(page, id)[1..];
    }
  }

  /** "lead/" with nothing after it routes to the detail page with an empty
      id, which the render step refuses: the home view is shown. */
  lemma EmptyLeadIdShowsHome()
    ensures RouteOf("#lead/", true) == Route(LeadDetailsPage, Some(""))
    ensures Navigate("#lead/", true) == HomeView
  {
    LeadLinkRoundTrip("");
  }

  /** Any hash that is not one of the known ones shows home. */
  lemma UnknownHashShowsHome(locationHash: string)
    requires StripHash(locationHash) != "dashboard" && StripHash(locationHash) != "api-docs"
    requires !(|StripHash(locationHash)| >= 5 && StripHash(locationHash)[..5] == LeadPrefix)
    ensures RouteOf(locationHash, true) == HomeRoute
    ensures Navigate(locationHash, true) == HomeView
  {
  }
}

=== FILE: strings.dfy ===
/** `String.prototype.split` on a one-character separator, its inverse
    `join`, and the `filter(Boolean)` that drops empty segments. */
module Strings {

  /** `s.split(sep)`: always at least one segment, none containing `sep`;
      the empty string splits into one empty segment. */
  function Split(s: string, sep: char): (r: seq<string>)
    ensures |r| >= 1
    ensures forall i :: 0 <= i < |r| ==> sep !in r[i]
    decreases |s|
  {
    if |s| == 0 then [""]
    else
      var rest := Split(s[1..], sep);
      if s[0] == sep then [""] + rest
      else [[s[0]] + rest[0]] + rest[1..]
  }

  /** `segs.join(sep)` of a non-empty list. */
  function Join(segs: seq<string>, sep: char): string
    requires |segs| >= 1
    decreases |segs|
  {
    if |segs| == 1 then segs[0] else segs[0] + [sep] + Join(segs[1..], sep)
  }

  /** Splitting then joining gives the original string back. */
  lemma {:induction false} JoinSplit(s: string, sep: char)
    ensures Join(Split(s, sep), sep) == s
    decreases |s|
  {
    if |s| > 0 {
      JoinSplit(s[1..], sep);
      var rest := Split(s[1..], sep);
      if s[0] != sep {
        if |rest| == 1 {
          assert Split(s, sep) == [[s[0]] + rest[0]];
        } else {
          assert Split(s, sep)[1..] == rest[1..];
        }
      } else {
        assert ([""] + rest)[1..] == rest;
      }
    }
  }

  /** A segment free of the separator splits to itself. */
  lemma {:induction false} SplitNoSep(a: string, sep: char)
    requires sep !in a
    ensures Split(a, sep) == [a]
    decreases |a|
  {
    if |a| > 0 {
      SplitNoSep(a[1..], sep);
      assert [a[0]] + a[1..] == a;
    }
  }

  /** Splitting at the first separator peels off the first segment. */
  lemma {:induction false} SplitCons(a: string, sep: char, rest: string)
    requires sep !in a
    ensures Split(a + [sep] + rest, sep) == [a] + Split(rest, sep)
    decreases |a|
  {
    var s := a + [sep] + rest;
    if |a| == 0 {
      assert s[1..] == rest;
    } else {
      assert s[1..] == a[1..] + [sep] + rest;
      SplitCons(a[1..], sep, rest);
      assert [a[0]] + a[1..] == a;
    }
  }

  /** Joining separator-free segments then splitting gives the segments back. */
  lemma {:induction false} SplitJoin(segs: seq<string>, sep: char)
    requires |segs| >= 1
    requires forall i :: 0 <= i < |segs| ==> sep !in segs[i]
    ensures Split(Join(segs, sep), sep) == segs
    decreases |segs|
  {
    if |segs| == 1 {
      SplitNoSep(segs[0], sep);
    } else {
      SplitJoin(segs[1..], sep);
      SplitCons(segs[0], sep, Join(segs[1..], sep));
      assert [segs[0]] + segs[1..] == segs;
    }
  }

  /** `segs.filter(Boolean)`: the non-empty segments, in order. */
  function NonEmpty(segs: seq<string>): (r: seq<string>)
    ensures forall i :: 0 <= i < |r| ==> r[i] != ""
    ensures forall x :: x in r <==> x in segs && x != ""
    ensures |r| <= |segs|
  {
    if |segs| == 0 then []
    else if segs[0] == "" then NonEmpty(segs[1..])
    else [segs[0]] + NonEmpty(segs[1..])
  }

  /** Dropping empty segments leaves a list of non-empty ones unchanged. */
  lemma {:induction false} NonEmptyKeeps(segs: seq<string>)
    requires forall i :: 0 <= i < |segs| ==> segs[i] != ""
    ensures NonEmpty(segs) == segs
  {
    if |segs| > 0 {
      NonEmptyKeeps(segs[1..]);
      assert [segs[0]] + segs[1..] == segs;
    }
  }

  /** Filtering distributes over concatenation, so the kept segments keep
      their relative order. */
  lemma {:induction false} NonEmptyAppend(a: seq<string>, b: seq<string>)
    ensures NonEmpty(a + b) == NonEmpty(a) + NonEmpty(b)
    decreases |a|
  {
    if |a| == 0 {
      assert a + b == b;
    } else {
      assert (a + b)[0] == a[0];
      assert (a + b)[1..] == a[1..] + b;
      NonEmptyAppend(a[1..], b);
    }
  }

  /** A single segment is kept exactly when it is non-empty. */
  lemma NonEmptySingle(x: string)
    ensures NonEmpty([x]) == if x == "" then [] else [x]
  {
    assert [x][1..] == [];
  }
}
